=== FILE: README.md ===
# jtd-infer-go schema widening, in Dafny

This project models the part of jtd-infer-go that infers a JSON Type Definition (RFC 8927) schema from sample JSON values:

- **The inferred-schema automaton** (`inferred_schema.go`).
  - A node records what has been inferred so far at one position of the data.
  - The nodes are Unknown, Any, Boolean, Number, String, Timestamp, Enum, Array, Properties, Values, Discriminator and Nullable.
  - `Infer` moves from a node and one decoded sample to the next node.
  - `IntoSchema` turns a node into a `Schema` record.
- **The numeric accumulator** (`inferred_number.go`).
  - It keeps the envelope `[min, max]` of the numbers seen and whether all of them were integral.
  - It resolves them to the first adequate JTD numeric type.
- **Path hints** (`hints.go`).
  - A hint set is a list of key paths, where the segment `-` matches any key.
  - A set is narrowed one key at a time while descending into a value.
  - It can tell whether it is active at the current position, and which discriminator field it names there.
  - Nothing in `Infer` consults hints yet.
- **The inferrer** (`inferrer.go`): a left fold of `Infer` over rows, starting from an Unknown node.

Modules, one per file:

| file | module | contents |
|---|---|---|
| `outcomes.dfy` | `Outcomes` | `Option`, and `Outcome = Ok \| Panic \| OrderDependent` |
| `json.dfy` | `JsonValues` | decoded JSON values and the integrality test |
| `jtd_schema.dfy` | `JtdSchema` | the `Schema` record and RFC 8927 validation (section 3.3) |
| `numbers.dfy` | `Numbers` | the numeric accumulator |
| `hints.dfy` | `PathHints` | hint sets and `Hints` |
| `inference.dfy` | `Inference` | the node type, the transition `Step`, and `IntoSchema` |
| `invariants.dfy` | `InferenceInvariants` | the shape invariant that inference preserves |
| `soundness.dfy` | `Soundness` | the meaning of a node, the proof that a transition only widens, and the soundness of the corrected mode |
| `inferrer.dfy` | `Inferrers` | the fold over rows, and the test vectors |
| `findings.dfy` | `Findings` | concrete inputs that show the two findings below |

Modelling choices:

- JSON values are a datatype.
  - Objects are `map<string, Json>`, as Go's `map[string]any` is.
  - Numbers are `real`, standing for float64.
  - `time.Parse(time.RFC3339, s)` is a parameter `ts: string -> bool`, passed to every operation that needs it.
- The transition is a pure function `Step(mode, ts, node, sample)` that returns an `Outcome`.
  - `Panic` stands for the `panic` at the end of the Go function. It unwinds every enclosing call.
  - `OrderDependent` stands for a result that depends on Go's randomised map iteration order.
- Mode `AsWritten` is the Go code.
  - `Inference.Infer` and the inferrer's source behaviour use it.
  - Mode `Corrected` changes exactly the two places listed under Findings.
  - The soundness theorem, "the materialised schema accepts every sample", is proved for `Corrected`. It does not hold for `AsWritten`, and `Findings` shows why.
- The model follows the code (`AsWritten`). The corrected mode exists because the code, as written, builds schemas that reject rows they were built from (`Findings.NullableIgnoresLaterSamples`), and panics on valid decoded JSON (`Findings.ArrayMismatchPanics`). inferred_schema.go:60-64 says the code mimics the Rust jtd-infer, whose inferred schemas accept the samples they were built from.
- A Go nil map in a Properties node is `NodeMap.Nil`, distinct from an empty map, because `IntoSchema` keeps nil as nil.

## Model

| member | source | states |
|---|---|---|
| `Outcomes.Collect` | inferred_schema.go:119-122 | Gathering per-key results panics iff some key panics and succeeds iff every key succeeds. On success it keeps exactly the same keys, each with its own result. |
| `Numbers.IsFloat` | inferred_number.go:24-27 | No contract of its own: float32 and float64 are the float types. `ContainedBy`, `IntoTypeFallback` and `NonIntegralYieldsFloat` state what it decides. |
| `Numbers.AsRange` | inferred_number.go:30-49 | No contract of its own: the bounds of each NumType, floats sharing [MinInt64, MaxFloat64]. `RangeMatchesJtd` states that the integer bounds are exactly JTD's. |
| `Numbers.IntoJtd` | inferred_number.go:51-73 | No contract of its own: each NumType maps to the jtd.Type of the same name. `RangeMatchesJtd` and `IntoTypeAccepts` rely on that pairing. |
| `Numbers.NewNumber` | inferred_number.go:84-89 | A fresh accumulator is reachable and admits exactly the number 0: the envelope is seeded with 0, not left empty. |
| `Numbers.RangeMatchesJtd` | inferred_number.go:30-49 | For each integer NumType, an integral number lies in the source's `AsRange` bounds iff the JTD type of the same name accepts it. |
| `Numbers.Infer` | inferred_number.go:92-98 | The new envelope is the smallest one that holds the old envelope and `n`. The integer flag is the old flag and-ed with `n`'s integrality, so once false it stays false. |
| `Numbers.InferKeepsReachable` | inferred_number.go:85-98 | Every accumulator built from `NewNumber` keeps 0 inside its envelope and has integral bounds while integral. A non-integral one has `min < max`. |
| `Numbers.InferOnlyWidens` | inferred_number.go:92-98 | Observing a number never makes a type adequate that was not adequate before. |
| `Numbers.InferAdmits` | inferred_number.go:92-98 | For any accumulator, the new one admits the observed number and everything the old one admitted. |
| `Numbers.ContainedBy` | inferred_number.go:127-135 | No contract of its own: false for a non-integral accumulator against an integer type, otherwise the type's range encloses the envelope. `ContainedByIffAccepted` states its meaning. |
| `Numbers.ContainedByIffAccepted` | inferred_number.go:127-135 | For an integer type, `ContainedBy` holds iff the JTD type accepts every number the accumulator admits. In particular it is false for a non-integral accumulator. |
| `Numbers.FirstContaining` | inferred_number.go:115-119 | A type found by the scan is in the list and contains the accumulator. |
| `Numbers.FirstContainingIsFirst` | inferred_number.go:115-121 | The scan finds nothing iff no listed type fits. Otherwise it returns the first fitting type, one that every earlier type fails. |
| `Numbers.IntoType` | inferred_number.go:101-122 | If the default type contains the accumulator, the default's JTD type is returned. Any other result is float64 or one of the six integer candidates. |
| `Numbers.IntoTypeFallback` | inferred_number.go:106-121 | When the default does not fit, the result is the first fitting type in the order uint8, int8, uint16, int16, uint32, int32. It is float64 when none fits. |
| `Numbers.IntoTypeAccepts` | inferred_number.go:101-135 | Whatever the default, the resolved JTD type accepts every number the accumulator admits. |
| `Numbers.FreshYieldsDefault` | inferred_number.go:84-89 | A fresh accumulator, with envelope [0, 0] and integral, resolves to its default for every NumType. |
| `Numbers.NonIntegralYieldsFloat` | inferred_number.go:101-135 | Every non-integral accumulator resolves to float64 for every integer default. For a float default it resolves to the default itself while the envelope lies inside [MinInt64, MaxFloat64]. |
| `Numbers.JtdNeedsNumber` | inferred_number.go:51-73 | Every NumType names a JTD type that accepts only numbers. |
| `Numbers.IntoTypeNeedsNumber` | inferred_number.go:101-122 | Whatever type an accumulator resolves to, it accepts only numbers. |
| `Numbers.InferAllEnvelope` | inferred_number.go:92-98 | After a run of observations the envelope is exactly the old envelope widened by the observed numbers: each bound is an old bound or an observation. The flag says whether every observation was integral. |
| `Numbers.IntoTypeVectorsFresh` | inferred_number_test.go:23-30 | A fresh accumulator honours each of the eight defaults. |
| `Numbers.IntoTypeVectorsUint8Limits` | inferred_number_test.go:33-40 | The envelope [0, 255] gives uint8 for the uint8 and int8 defaults and each other default for the others. |
| `Numbers.IntoTypeVectorsInt8Limits` | inferred_number_test.go:43-50 | The envelope [-128, 127] gives int8 for the unsigned defaults and each signed or float default for itself. |
| `Numbers.IntoTypeVectorsNonIntegral` | inferred_number_test.go:53-60 | A single 0.5 gives float64 for every integer default, and float32 or float64 for the float defaults. |
| `PathHints.NewHintSet` | hints.go:55-60 | An empty set is inactive, peeks nothing, and descending any key leaves it empty. |
| `PathHints.Add` | hints.go:63-66 | The path is appended at the end and every earlier path stays in place. |
| `PathHints.SubHints` | hints.go:70-87 | The result is never longer than the input. |
| `PathHints.SubHintsSpec` | hints.go:73-81 | A path is in the result iff it is the tail of a non-empty input path whose head is the key or `-`. |
| `PathHints.SubHintsKeepsOrder` | hints.go:73-81 | Filtering distributes over concatenation, so surviving paths keep their relative order. |
| `PathHints.AddThenSubHints` | hints.go:63-87 | Adding a path and then descending gives the descended set followed by the added path's tail, if the path survives. |
| `PathHints.IsActive` | hints.go:90-98 | The set is active iff some path in it is empty. |
| `PathHints.PeekActive` | hints.go:102-112 | A field is found iff some path has exactly one segment. The field is that segment of the first such path. Otherwise the result is ("", false). |
| `PathHints.AlongSound` | hints.go:70-87 | Every path left after descending through `keys` is the remainder of an input path whose leading segments match `keys`, with `-` matching any key. |
| `PathHints.AlongComplete` | hints.go:70-87 | Every input path whose leading segments match `keys` survives the descent as its remainder. |
| `PathHints.SubHintsAlongSpec` | hints.go:70-87 | After descending through `keys`, the set holds exactly the remainders of the matching paths. |
| `PathHints.ActiveIffMatched` | hints.go:70-98 | A set is active after `keys` iff one of its paths matches `keys` exactly, segment by segment. |
| `PathHints.PeekIffOneLeft` | hints.go:70-112 | A field is peeked after `keys` iff some path is one segment longer than `keys` and matches it on the rest. |
| `PathHints.HintSetVectors` | hints_test.go:9-42 | The set with path a.b.c is inactive at the root and after a. After a,b it peeks "c". After a,b,c it is active and peeks nothing. |
| `PathHints.HintSetWildcardVectors` | hints_test.go:44-54 | With paths a.b.c and d.-.e, the keys a,x,c do not activate the set but d,x,e do. |
| `PathHints.NewHints` | hints.go:15-22 | New hints have the zero default, uint8, and all three sets inactive with no discriminator to peek. |
| `PathHints.HintsSubHints` | hints.go:25-32 | Descending keeps the default NumType and descends each of the three sets on its own. |
| `PathHints.IsEnumActive` | hints.go:34-37 | The enum set is active iff one of its paths is empty. |
| `PathHints.IsValuesActive` | hints.go:39-42 | The values set is active iff one of its paths is empty. |
| `PathHints.PeekActiveDiscriminator` | hints.go:44-48 | A discriminator is found iff some discriminator path has exactly one segment left. |
| `PathHints.HintsAlongIndependent` | hints.go:25-32 | Along any key path, the three sets never interact and the default never changes. |
| `PathHints.NewHintsNeverActive` | hints.go:15-22 | Empty hints are inactive and peek nothing at every position. |
| `Inference.Step` | inferred_schema.go:65-277 | No contract of its own: the transition in both modes, with the source's cases in the source's order. `Inference.Infer` states the as-written cases; `StepInferable`, `StepWidens` and `StepAccepts` state what it preserves. |
| `Inference.FromUnknown` | inferred_schema.go:80-130 | The first non-null sample at a position. A scalar always succeeds. An object panics iff one of its values, fed to a fresh node, panics, and succeeds iff every one succeeds. It then gives a Properties node with a nil optional map whose required map has exactly the object's keys, each holding that value's fresh inference (lines 119-122). `FromUnknownInferable` and `FromUnknownAccepts` state what it builds. |
| `Inference.FoldItems` | inferred_schema.go:102-114 | No contract of its own: array elements fed left to right, stopping at the first failure. `FoldItemsAppend`, `FoldInferable`, `FoldWidens` and `FoldAccepts` state its properties. |
| `Inference.MergeProperties` | inferred_schema.go:198-236 | A Properties node that meets an object stays a Properties node. |
| `Inference.KeepRequired` | inferred_schema.go:207-225 | Required keys that the sample has stay required, with their merged node. A nil map stays nil. |
| `Inference.GrowOptional` | inferred_schema.go:207-233 | Optional gains the required keys the sample lacks, with their old node, and the sample keys that were not required. Every other optional key is untouched. Optional is nil afterwards iff it was nil and nothing was added. |
| `Inference.MergeOutcome` | inferred_schema.go:223-233 | A merge panics iff some sample key's sub-merge panics. It succeeds iff every sub-merge succeeds. |
| `Inference.MergeShape` | inferred_schema.go:198-236 | Required becomes old required ∩ sample keys. Optional becomes old optional ∪ missing required ∪ new keys. Disjoint sets stay disjoint, and no key moves from optional to required. Each present key is merged where it lived. |
| `Inference.ValuesFromObject` | inferred_schema.go:242-253 | A Values node fed `{}` keeps its node. Otherwise, when the outcome is fixed, the new node is what every value gives from a fresh node. It panics iff some value's inference panics. |
| `Inference.FreshNodes` | inferred_schema.go:244-247 | One entry per object key, holding that value inferred from a fresh node. |
| `Inference.Infer` | inferred_schema.go:65-277 | The source transition, case by case. Null wraps any node. A Nullable node re-wraps itself on any sample. From Unknown: bool gives Boolean, number gives a one-number accumulator, string gives Timestamp iff it parses, array folds its elements. An object gives all-required Properties whose every entry is that value inferred from a fresh node, and it panics iff one of those inferences panics. Any and Enum give Any. Discriminator gives Any, and panics exactly when the sample is an object with a string tag and the branch it feeds (the mapped node, or a fresh one) panics. Scalars keep their shape on a matching sample and become Any otherwise. Array fed a non-array panics. Properties and Values fed an object are `MergeProperties` and `ValuesFromObject`, which `MergeOutcome`, `MergeShape` and `ValuesFromObject`'s own contract describe; fed a non-object they give Any. |
| `Inference.FoldItemsAppend` | inferred_schema.go:105-108 | Feeding elements is a left fold: feeding `a + b` is feeding `a`, then `b`, stopping at the first failure. |
| `Inference.IntoSchema` | inferred_schema.go:279-348 | The schema is nullable iff the node is Nullable, and never has two forms. Unknown, Any and Discriminator give the empty schema. Enum gives exactly its members. Properties gives properties iff required is non-nil and optionalProperties iff optional is non-nil, with the same keys. Nullable gives the inner schema marked nullable. |
| `Inference.IntoSchemaCases` | inferred_schema.go:284-336 | Boolean, String and Timestamp give their JTD type. Number gives the type its accumulator resolves to under the uint8 default. Array gives the elements form and Values the values form, each holding the sub-node's schema. Every properties and optionalProperties entry is the schema of its sub-node. |
| `InferenceInvariants.StepInferable` | inferred_schema.go:65-277 | From a node with no Enum, Values or Discriminator, non-nil required maps, disjoint required and optional keys, and reachable accumulators, every transition stays so. It is never order-dependent, and it never panics in the corrected mode. |
| `InferenceInvariants.FromUnknownInferable` | inferred_schema.go:80-130 | A first sample always builds such a node. |
| `InferenceInvariants.FoldInferable` | inferred_schema.go:102-114 | Folding array elements keeps the invariant. |
| `InferenceInvariants.MergeInferable` | inferred_schema.go:198-236 | Merging an object into a Properties node keeps the invariant, in particular the disjointness of required and optional. |
| `Soundness.StepWidens` | inferred_schema.go:65-277 | In both modes, a transition that succeeds only widens: everything the old node accepted, the new node still accepts. A corrected transition never fails. |
| `Soundness.FoldWidens` | inferred_schema.go:183-196 | In both modes, a fold of array elements that succeeds only widens the element node. The corrected fold never fails. |
| `Soundness.MergeWidens` | inferred_schema.go:198-236 | In both modes, a merge that succeeds only widens a Properties node. The corrected merge never fails. |
| `Soundness.StepAccepts` | inferred_schema.go:65-277 | After a corrected transition the node accepts the sample it was fed. |
| `Soundness.FromUnknownAccepts` | inferred_schema.go:80-130 | The node built from a first sample accepts that sample. |
| `Soundness.FoldAccepts` | inferred_schema.go:102-114 | The element node after a fold accepts every element. |
| `Soundness.MergeAccepts` | inferred_schema.go:198-236 | A merged Properties node accepts the object merged into it. |
| `Soundness.IntoSchemaSound` | inferred_schema.go:279-348 | The materialised schema accepts, under RFC 8927 validation, every value the node accepts. |
| `Soundness.IntoSchemaPrecise` | inferred_schema.go:279-348 | A partial converse of `IntoSchemaSound`: precision by JSON kind only (an envelope [0, 5] materialises to uint8, which also accepts 200). Except for Unknown, Any, Discriminator and Nullable nodes, and a Properties node with both maps nil, the schema rejects null and every value of a different JSON kind from the node's. |
| `Soundness.CorrectedSchemaAcceptsRows` | inferred_schema.go:65-348 | Corrected inference over any rows succeeds, and its schema accepts every row. |
| `Inferrers.NewInferrer` | inferrer.go:11-15 | A new inferrer materialises to the empty schema. |
| `Inferrers.Infer` | inferrer.go:18-22 | Feeding one row succeeds or panics exactly as the node transition does, and the new inferrer holds the transition's node. |
| `Inferrers.IntoSchema` | inferrer.go:25-27 | No contract of its own: it is the node's `IntoSchema`. `NewInferrer`, `JoeRowVector` and `CorrectedInferrerSound` state what it gives. |
| `Inferrers.InferRows` | inferrer.go:18-22 | No contract of its own: rows fed one by one through `Inferrers.Infer`. `InferRowsIsFold` and `InferRowsAppend` state what it computes. |
| `Inferrers.InferRowsIsFold` | inferrer.go:18-22 | Feeding rows one by one is the left fold of the node transition, the same fold an array's elements go through. |
| `Inferrers.InferRowsAppend` | inferrer.go:18-22 | Feeding `a + b` is feeding `a`, then `b`. |
| `Inferrers.InferRowsDeterminedByNode` | inferrer.go:5-22 | The outcome of feeding rows is fixed by the fold of the node alone. |
| `Inferrers.CorrectedInferrerSound` | inferrer.go:11-27 | With the corrected transition, an inferrer fed any rows succeeds, and its schema accepts every row. |
| `Inferrers.AsWrittenNeverOrderDependent` | inferrer.go:11-22 | As written, the rows never make the result depend on map iteration order, and the node never holds Enum, Values or Discriminator. |
| `Inferrers.JoeRowNode` | inferrer_test.go:12-23 | The row {"name":"Joe","age":42,"hobbies":["code","animals"]} builds required name: String, age: Number [0, 42], hobbies: Array(String), with a nil optional map. |
| `Inferrers.JoeNodeSchema` | inferrer_test.go:25-31 | That node materialises to properties name: string, age: uint8, hobbies: elements string, with no optional properties. |
| `Inferrers.JoeRowVector` | inferrer_test.go:12-35 | A new inferrer fed that row gives exactly that schema. |
| `Inferrers.SingleNumberRow` | inferrer.go:11-22 | A single number row gives the accumulator that saw only that number. |
| `Inferrers.SingleNumberVectorsUint8` | inferred_schema.go:286-293 | 52 and 1.0 materialise to uint8. An integral float counts as an integer. |
| `Inferrers.SingleNumberVectorsInt8` | inferred_schema.go:286-293 | -1 materialises to int8. |
| `Inferrers.SingleNumberVectorsInt32` | inferred_schema.go:286-293 | -2147483648 materialises to int32. |
| `Inferrers.SingleNumberVectorsFloat` | inferred_schema.go:286-293 | 1.1 materialises to float64. |
| `Findings.NullableIgnoresLaterSamples` | inferred_schema.go:66-78 | As written, rows 5, null, 300 give Nullable(Nullable(Number [0, 5])). Its schema is nullable uint8, which rejects the row 300. |
| `Findings.Envelope300IsUint16` | inferred_number.go:101-121 | The envelope [0, 300] with the uint8 default resolves to uint16. |
| `Findings.NullableRowsCorrected` | inferred_schema.go:66-78 | Corrected, the same rows give Nullable(Number [0, 300]). It is nullable uint16, which accepts all three rows. |
| `Findings.ArrayMismatchPanics` | inferred_schema.go:183-276 | As written, the array [[1], 2] panics: an Array element node meets a number. |
| `Findings.ArrayMismatchCorrected` | inferred_schema.go:183-276 | Corrected, it gives Array(Any), whose schema accepts the array. |

## Left out

- JSON text decoding, and the JSON tags and omitempty of `Schema` (schema.go:9-21). Values arrive already decoded.
- `Schema` fields the inferrer never sets: definitions, metadata, ref, additionalProperties, discriminator and mapping.
- `time.Parse(time.RFC3339, …)`. It is the parameter `ts`. The same `ts` also decides the RFC 8927 timestamp check in `JtdSchema.Accepts`. So the soundness results (`Soundness.IntoSchemaSound`, `Soundness.CorrectedSchemaAcceptsRows`, `Inferrers.CorrectedInferrerSound`) assume that Go's parser and the validator accept the same strings. For Timestamp nodes they promise nothing when the two disagree.
- float64 semantics. Numbers are `real`; NaN and the infinities are not modelled, and neither is overflow in the `int(n)` conversion of the integrality test.
- `reflect`-based kind dispatch. It is replaced by a closed JSON datatype, so the only reachable panic is the Array mismatch.
- In-place mutation and aliasing. The Properties merge and the Enum and Discriminator updates mutate the node they are given, and `HintSet.Add` (hints.go:63-66) appends to its receiver and returns it. The model returns new values, so `PathHints.Add` does not change the set a caller still holds.
- Go's randomised map iteration order. A result that depends on it is `OrderDependent`.
- `Inference.ValuesFromObject`: the Values-node object transition keeps only the last-visited value's fresh node. It is exact only when every value gives the same node, or the object is empty; otherwise the result is `OrderDependent`. No transition ever builds a Values node.
- Hint-driven creation of Enum, Values and Discriminator nodes, and discriminator materialisation. The source has only TODOs for them, and nothing in the transition consults hints.
- The nil `*HintSet` pointer inside `Hints`. Each set is a value here.
- The panics on a nil Enum set or nil Discriminator mapping. No transition builds those nodes.
- The enum list of a materialised schema. It is a set, because the source fills it from a map in random order.
- The `minMax{…}` argument at inferred_schema.go:288-292 does not match `IntoType(defaultType NumType)`. It is modelled as the uint8 default.
- The `examples/` programs and the hinted tests in inferrer_test.go:37-117. They call functions that do not exist in this snapshot. `TestJTDInfer` (inferrer_test.go:12-35) also calls `NewInferrer(Hints{})`. The Joe vector uses the zero-argument `NewInferrer` of inferrer.go:11 instead, which builds the same Unknown node.
- Concrete test vectors fix the timestamp parser only where it matters. Their strings are assumed not to parse as timestamps.

## Findings

| source | as written | input that shows it | evidently intended | confidence | as-written member | corrected member |
|---|---|---|---|---|---|---|
| inferred_schema.go:66-78 | A null sample wraps the node again even if it is already Nullable. A non-null sample against a Nullable node re-wraps it without inferring the value. | Rows 5, null, 300 give Nullable(Nullable(Number [0, 5])), a nullable uint8 schema that rejects 300. | A Nullable node infers non-null samples into its inner node and stays as it is on null, so the schema accepts every row. | not executed | `Findings.NullableIgnoresLaterSamples` | `Findings.NullableRowsCorrected` |
| inferred_schema.go:183-276 | An Array node fed a non-array value falls through every case to the panic. | The array [[1], 2]: its element node becomes Array, then meets the number 2. | Like every other shape, a mismatching sample widens the node to Any. | not executed | `Findings.ArrayMismatchPanics` | `Findings.ArrayMismatchCorrected` |

`Soundness.CorrectedSchemaAcceptsRows` proves the intended property for all inputs with both corrections in place.

=== FILE: findings.dfy ===
/** Two places where the transition as written breaks the inferrer's
    purpose, each shown on a concrete input next to the corrected
    transition's result on the same input. */
module Findings {
  import opened Outcomes
  import opened JsonValues
  import opened JtdSchema
  import opened Inference
  import Numbers

  /** Rows 5, null, 300. */
  const NullableRows: seq<Json> := [JNumber(5.0), JNull, JNumber(300.0)]

  /** As written, a Nullable node ignores every later non-null sample: 300
      never reaches the accumulator, the schema says nullable uint8, and it
      rejects the row 300 it was built from. */
  lemma NullableIgnoresLaterSamples(ts: TimestampParser)
    ensures FoldItems(AsWritten, ts, Unknown, NullableRows)
         == Ok(Nullable(Nullable(Number(Numbers.InferredNumber(0.0, 5.0, true)))))
    ensures IntoSchema(Nullable(Nullable(Number(Numbers.InferredNumber(0.0, 5.0, true)))))
         == Empty.(nullable := true, typ := Some(TypeUint8))
    ensures !Accepts(ts, Empty.(nullable := true, typ := Some(TypeUint8)), NullableRows[2])
  {
    var acc := Numbers.InferredNumber(0.0, 5.0, true);
    assert Step(AsWritten, ts, Unknown, NullableRows[0]) == Ok(Number(acc));
    assert NullableRows[1..][1..][1..] == [];
    assert Numbers.ContainedBy(acc, Numbers.Uint8);
  }

  /** The envelope [0, 300] resolves to uint16 under the uint8 default. */
  lemma Envelope300IsUint16()
    ensures Numbers.IntoType(Numbers.InferredNumber(0.0, 300.0, true), Numbers.Uint8) == TypeUint16
  {
    var acc := Numbers.InferredNumber(0.0, 300.0, true);
    assert !Numbers.ContainedBy(acc, Numbers.Uint8);
    assert !Numbers.ContainedBy(acc, Numbers.Int8);
    assert Numbers.ContainedBy(acc, Numbers.Uint16);
    Numbers.IntoTypeFallback(acc, Numbers.Uint8);
    assert Numbers.IntegerCandidates[2] == Numbers.Uint16;
  }

  /** Corrected, the same rows give nullable uint16, which accepts all
      three. */
  lemma NullableRowsCorrected(ts: TimestampParser)
    ensures FoldItems(Corrected, ts, Unknown, NullableRows)
         == Ok(Nullable(Number(Numbers.InferredNumber(0.0, 300.0, true))))
    ensures IntoSchema(Nullable(Number(Numbers.InferredNumber(0.0, 300.0, true))))
         == Empty.(nullable := true, typ := Some(TypeUint16))
    ensures forall i :: 0 <= i < |NullableRows| ==>
              Accepts(ts, Empty.(nullable := true, typ := Some(TypeUint16)), NullableRows[i])
  {
    var five := Number(Numbers.InferredNumber(0.0, 5.0, true));
    assert Step(Corrected, ts, Unknown, NullableRows[0]) == Ok(five);
    assert Step(Corrected, ts, five, NullableRows[1]) == Ok(Nullable(five));
    assert Step(Corrected, ts, Nullable(five), NullableRows[2])
        == Ok(Nullable(Number(Numbers.InferredNumber(0.0, 300.0, true))));
    assert NullableRows[1..][1..][1..] == [];
    Envelope300IsUint16();
  }

  /** The array [[1], 2]: the element node is Array after [1], and 2 is not
      an array. */
  const MixedArray: Json := JArray([JArray([JNumber(1.0)]), JNumber(2.0)])

  /** As written, an Array node fed a non-array reaches the panic, so valid
      JSON aborts inference. */
  lemma ArrayMismatchPanics(ts: TimestampParser)
    ensures Infer(ts, Unknown, MixedArray) == Panic
    ensures FoldItems(AsWritten, ts, Unknown, MixedArray.items) == Panic
  {
    var first := MixedArray.items[0];
    assert FoldItems(AsWritten, ts, Unknown, first.items) == Ok(Number(Numbers.InferredNumber(0.0, 1.0, true)));
    assert Step(AsWritten, ts, Unknown, first) == Ok(Array(Number(Numbers.InferredNumber(0.0, 1.0, true))));
  }

  /** Corrected, the element node widens to Any, and the resulting schema
      (elements of the empty schema) accepts the array. */
  lemma ArrayMismatchCorrected(ts: TimestampParser)
    ensures Step(Corrected, ts, Unknown, MixedArray) == Ok(Array(Any))
    ensures IntoSchema(Array(Any)) == Empty.(elements := Some(Empty))
    ensures Accepts(ts, IntoSchema(Array(Any)), MixedArray)
  {
    var first := MixedArray.items[0];
    assert FoldItems(Corrected, ts, Unknown, first.items) == Ok(Number(Numbers.InferredNumber(0.0, 1.0, true)));
    assert Step(Corrected, ts, Unknown, first) == Ok(Array(Number(Numbers.InferredNumber(0.0, 1.0, true))));
    assert FoldItems(Corrected, ts, Unknown, MixedArray.items) == Ok(Any);
  }
}

=== FILE: hints.dfy ===
/** Path hints (hints.go): lists of key paths, where the segment "-" matches
    any key, that are narrowed one key at a time while descending into a
    value. Nothing in the inference transition consults them yet. */
module PathHints {
  import opened Numbers

  /** The segment that matches every key. */
  const Wildcard: string := "-"

  /** A HintSet: its paths, in insertion order. */
  datatype HintSet = HintSet(paths: seq<seq<string>>)

  /** NewHintSet: no paths, so inactive and peeking nothing. */
  function NewHintSet(): (r: HintSet)
    ensures !IsActive(r) && PeekActive(r) == ("", false)
    ensures forall key :: SubHints(r, key) == r
  {
    HintSet([])
  }

  /** Whether a path segment lets key `key` through. */
  predicate Selects(segment: string, key: string)
  {
    segment == Wildcard || segment == key
  }

  /** Appends a path at the end of the set, leaving the others in place. */
  function Add(h: HintSet, path: seq<string>): (r: HintSet)
    ensures |r.paths| == |h.paths| + 1
    ensures r.paths[..|h.paths|] == h.paths && r.paths[|h.paths|] == path
  {
    HintSet(h.paths + [path])
  }

  /** The hints below key `key`: the non-empty paths whose head selects
      `key`, with that head dropped, in their original order. Empty paths
      are dropped. */
  function SubHints(h: HintSet, key: string): (r: HintSet)
    ensures |r.paths| <= |h.paths|
    decreases |h.paths|
  {
    if |h.paths| == 0 then HintSet([])
    else
      var p := h.paths[0];
      var rest := SubHints(HintSet(h.paths[1..]), key);
      if |p| > 0 && Selects(p[0], key) then HintSet([p[1..]] + rest.paths) else rest
  }

  /** What SubHints keeps: a path survives, shortened by its head, iff it is
      non-empty and its head selects `key`. */
  lemma {:induction false} SubHintsSpec(h: HintSet, key: string)
    ensures forall q :: q in SubHints(h, key).paths <==>
      exists p :: p in h.paths && |p| > 0 && Selects(p[0], key) && q == p[1..]
    decreases |h.paths|
  {
    if |h.paths| > 0 {
      var t := HintSet(h.paths[1..]);
      SubHintsSpec(t, key);
      assert forall p' :: p' in h.paths <==> p' == h.paths[0] || p' in t.paths;
    }
  }

  /** SubHints distributes over concatenation, so it keeps the relative
      order of the surviving paths. */
  lemma {:induction false} SubHintsKeepsOrder(a: seq<seq<string>>, b: seq<seq<string>>, key: string)
    ensures SubHints(HintSet(a + b), key).paths == SubHints(HintSet(a), key).paths + SubHints(HintSet(b), key).paths
    decreases |a|
  {
    if |a| > 0 {
      assert (a + b)[0] == a[0];
      assert (a + b)[1..] == a[1..] + b;
      SubHintsKeepsOrder(a[1..], b, key);
    } else {
      assert a + b == b;
    }
  }

  /** Adding a path and then descending equals descending and then adding
      what is left of that path, if anything. */
  lemma AddThenSubHints(h: HintSet, path: seq<string>, key: string)
    ensures SubHints(Add(h, path), key).paths ==
      SubHints(h, key).paths + (if |path| > 0 && Selects(path[0], key) then [path[1..]] else [])
  {
    SubHintsKeepsOrder(h.paths, [path], key);
    assert SubHints(HintSet([path]), key).paths ==
      (if |path| > 0 && Selects(path[0], key) then [path[1..]] else []) by {
      assert [path][1..] == [];
    }
  }

  /** Some path is exhausted: the hint applies at exactly this position. */
  function IsActive(h: HintSet): (r: bool)
    ensures r <==> exists i :: 0 <= i < |h.paths| && |h.paths[i]| == 0
    decreases |h.paths|
  {
    if |h.paths| == 0 then false
    else if |h.paths[0]| == 0 then true
    else
      var r := IsActive(HintSet(h.paths[1..]));
      assert forall i :: 1 <= i < |h.paths| ==> h.paths[i] == h.paths[1..][i - 1];
      r
  }

  /** The last segment of the first path with exactly one segment left, if
      any: the field to look at in the current object. */
  function PeekActive(h: HintSet): (r: (string, bool))
    ensures r.1 <==> exists i :: 0 <= i < |h.paths| && |h.paths[i]| == 1
    ensures r.1 ==> exists i :: 0 <= i < |h.paths| && |h.paths[i]| == 1 && r.0 == h.paths[i][0]
                         && forall j :: 0 <= j < i ==> |h.paths[j]| != 1
    ensures !r.1 ==> r.0 == ""
    decreases |h.paths|
  {
    if |h.paths| == 0 then ("", false)
    else if |h.paths[0]| == 1 then (h.paths[0][0], true)
    else
      var r := PeekActive(HintSet(h.paths[1..]));
      assert forall i :: 1 <= i < |h.paths| ==> h.paths[i] == h.paths[1..][i - 1];
      assert r.1 ==> exists i :: 0 <= i < |h.paths| && |h.paths[i]| == 1 && r.0 == h.paths[i][0]
                         && forall j :: 0 <= j < i ==> |h.paths[j]| != 1 by {
        if r.1 {
          var i :| 0 <= i < |h.paths[1..]| && |h.paths[1..][i]| == 1 && r.0 == h.paths[1..][i][0]
                 && forall j :: 0 <= j < i ==> |h.paths[1..][j]| != 1;
          assert h.paths[i + 1] == h.paths[1..][i];
          forall j | 0 <= j < i + 1 ensures |h.paths[j]| != 1 {
            if j > 0 { assert h.paths[j] == h.paths[1..][j - 1]; }
          }
        }
      }
      r
  }

  /** Pattern `pattern` names exactly the position reached by `keys`. */
  predicate Matches(pattern: seq<string>, keys: seq<string>)
  {
    |pattern| == |keys| && forall i :: 0 <= i < |keys| ==> Selects(pattern[i], keys[i])
  }

  /** The hints after descending through `keys`, one SubHints per key. */
  function SubHintsAlong(h: HintSet, keys: seq<string>): HintSet
    decreases |keys|
  {
    if |keys| == 0 then h else SubHintsAlong(SubHints(h, keys[0]), keys[1..])
  }

  lemma MatchesCons(p: seq<string>, keys: seq<string>)
    requires |keys| > 0 && |p| >= |keys|
    ensures Matches(p[..|keys|], keys) <==>
      Selects(p[0], keys[0]) && Matches(p[1..][..|keys| - 1], keys[1..])
  {
    var n := |keys|;
    if Selects(p[0], keys[0]) && Matches(p[1..][..n - 1], keys[1..]) {
      forall i | 0 <= i < n ensures Selects(p[..n][i], keys[i]) {
        if i > 0 {
          assert p[..n][i] == p[1..][..n - 1][i - 1];
          assert keys[i] == keys[1..][i - 1];
        }
      }
    }
    if Matches(p[..n], keys) {
      assert p[0] == p[..n][0];
      forall i | 0 <= i < n - 1 ensures Selects(p[1..][..n - 1][i], keys[1..][i]) {
        assert p[1..][..n - 1][i] == p[..n][i + 1];
      }
    }
  }

  lemma SubHintsSource(h: HintSet, key: string, q: seq<string>) returns (p: seq<string>)
    requires q in SubHints(h, key).paths
    ensures p in h.paths && |p| > 0 && Selects(p[0], key) && q == p[1..]
  {
    SubHintsSpec(h, key);
    p :| p in h.paths && |p| > 0 && Selects(p[0], key) && q == p[1..];
  }

  lemma SubHintsKeeps(h: HintSet, key: string, p: seq<string>)
    requires p in h.paths && |p| > 0 && Selects(p[0], key)
    ensures p[1..] in SubHints(h, key).paths
  {
    SubHintsSpec(h, key);
  }

  /** Every path left after `keys` is the remainder of a path at least as
      long as `keys` whose leading segments match `keys`. */
  lemma {:induction false} AlongSound(h: HintSet, keys: seq<string>, q: seq<string>) returns (p: seq<string>)
    requires q in SubHintsAlong(h, keys).paths
    ensures p in h.paths && |p| >= |keys| && Matches(p[..|keys|], keys) && q == p[|keys|..]
    decreases |keys|
  {
    var n := |keys|;
    if n == 0 {
      p := q;
      assert p[..0] == [] && p[0..] == p;
    } else {
      var h1 := SubHints(h, keys[0]);
      assert SubHintsAlong(h, keys) == SubHintsAlong(h1, keys[1..]);
      var p1 := AlongSound(h1, keys[1..], q);
      p := SubHintsSource(h, keys[0], p1);
      assert p1[..n - 1] == p[1..][..n - 1];
      MatchesCons(p, keys);
      assert q == p1[n - 1..] == p[n..];
    }
  }

  /** Conversely, every such path survives descending through `keys`. */
  lemma {:induction false} AlongComplete(h: HintSet, keys: seq<string>, p: seq<string>)
    requires p in h.paths && |p| >= |keys| && Matches(p[..|keys|], keys)
    ensures p[|keys|..] in SubHintsAlong(h, keys).paths
    decreases |keys|
  {
    var n := |keys|;
    if n == 0 {
      assert p[0..] == p;
    } else {
      var h1 := SubHints(h, keys[0]);
      MatchesCons(p, keys);
      assert p[0] == p[..n][0];
      SubHintsKeeps(h, keys[0], p);
      var p1 := p[1..];
      AlongComplete(h1, keys[1..], p1);
      assert p1[n - 1..] == p[n..];
    }
  }

  /** The meaning of descending: after `keys`, the set holds exactly the
      remainders of the paths at least as long as `keys` whose leading
      segments match `keys` segment by segment, "-" matching anything. */
  lemma SubHintsAlongSpec(h: HintSet, keys: seq<string>)
    ensures forall q :: q in SubHintsAlong(h, keys).paths <==>
      exists p :: p in h.paths && |p| >= |keys| && Matches(p[..|keys|], keys) && q == p[|keys|..]
  {
    forall q | q in SubHintsAlong(h, keys).paths
      ensures exists p :: p in h.paths && |p| >= |keys| && Matches(p[..|keys|], keys) && q == p[|keys|..]
    {
      var p := AlongSound(h, keys, q);
    }
    forall q | exists p :: p in h.paths && |p| >= |keys| && Matches(p[..|keys|], keys) && q == p[|keys|..]
      ensures q in SubHintsAlong(h, keys).paths
    {
      var p :| p in h.paths && |p| >= |keys| && Matches(p[..|keys|], keys) && q == p[|keys|..];
      AlongComplete(h, keys, p);
    }
  }

  /** A hint set is active after `keys` iff one of its paths matches `keys`
      exactly. */
  lemma ActiveIffMatched(h: HintSet, keys: seq<string>)
    ensures IsActive(SubHintsAlong(h, keys)) <==> exists p :: p in h.paths && Matches(p, keys)
  {
    var s := SubHintsAlong(h, keys);
    if IsActive(s) {
      var i :| 0 <= i < |s.paths| && |s.paths[i]| == 0;
      var p := AlongSound(h, keys, s.paths[i]);
      assert p == p[..|keys|];
    }
    if exists p :: p in h.paths && Matches(p, keys) {
      var p :| p in h.paths && Matches(p, keys);
      assert p[..|keys|] == p;
      AlongComplete(h, keys, p);
      assert p[|keys|..] == [];
      var i :| 0 <= i < |s.paths| && s.paths[i] == p[|keys|..];
    }
  }

  /** PeekActive finds a field after `keys` iff some path is exactly one
      segment longer than `keys` and matches it on the rest. */
  lemma PeekIffOneLeft(h: HintSet, keys: seq<string>)
    ensures PeekActive(SubHintsAlong(h, keys)).1 <==>
      exists p :: p in h.paths && |p| == |keys| + 1 && Matches(p[..|keys|], keys)
  {
    var s := SubHintsAlong(h, keys);
    if PeekActive(s).1 {
      var i :| 0 <= i < |s.paths| && |s.paths[i]| == 1;
      var p := AlongSound(h, keys, s.paths[i]);
    }
    if exists p :: p in h.paths && |p| == |keys| + 1 && Matches(p[..|keys|], keys) {
      var p :| p in h.paths && |p| == |keys| + 1 && Matches(p[..|keys|], keys);
      AlongComplete(h, keys, p);
      var i :| 0 <= i < |s.paths| && s.paths[i] == p[|keys|..];
    }
  }

  /** hints_test.go, TestHintSet: the single path a.b.c. */
  lemma HintSetVectors()
    ensures var hs := HintSet([["a", "b", "c"]]);
      && !IsActive(hs) && PeekActive(hs) == ("", false)
      && !IsActive(SubHints(hs, "a")) && PeekActive(SubHints(hs, "a")) == ("", false)
      && !IsActive(SubHints(SubHints(hs, "a"), "b"))
      && PeekActive(SubHints(SubHints(hs, "a"), "b")) == ("c", true)
      && IsActive(SubHints(SubHints(SubHints(hs, "a"), "b"), "c"))
      && PeekActive(SubHints(SubHints(SubHints(hs, "a"), "b"), "c")) == ("", false)
  {
    var hs := HintSet([["a", "b", "c"]]);
    assert SubHints(hs, "a") == HintSet([["b", "c"]]);
    assert SubHints(HintSet([["b", "c"]]), "b") == HintSet([["c"]]);
    assert ["c"][1..] == [];
    assert SubHints(HintSet([["c"]]), "c") == HintSet([[]]);
  }

  /** hints_test.go, TestHintSetWildcard: "-" matches "x", a literal does not. */
  lemma HintSetWildcardVectors()
    ensures var hs := HintSet([["a", "b", "c"], ["d", "-", "e"]]);
      && !IsActive(SubHints(SubHints(SubHints(hs, "a"), "x"), "c"))
      && IsActive(SubHints(SubHints(SubHints(hs, "d"), "x"), "e"))
  {
    var hs := HintSet([["a", "b", "c"], ["d", "-", "e"]]);
    assert SubHints(hs, "a") == HintSet([["b", "c"]]);
    assert SubHints(HintSet([["b", "c"]]), "x") == HintSet([]);
    assert SubHints(hs, "d") == HintSet([["-", "e"]]);
    assert SubHints(HintSet([["-", "e"]]), "x") == HintSet([["e"]]);
    assert ["e"][1..] == [];
    assert SubHints(HintSet([["e"]]), "e") == HintSet([[]]);
  }

  /** Hints: the default numeric type and the three independent sets. */
  datatype Hints = Hints(defaultNumType: NumType, enums: HintSet, values: HintSet, discriminator: HintSet)

  /** NewHints: three empty sets and the zero NumType, uint8. */
  function NewHints(): (r: Hints)
    ensures r.defaultNumType == Uint8
    ensures !IsEnumActive(r) && !IsValuesActive(r) && !PeekActiveDiscriminator(r).1
  {
    Hints(Uint8, NewHintSet(), NewHintSet(), NewHintSet())
  }

  /** Hints.SubHints: descends each set on its own, keeping the default. */
  function HintsSubHints(h: Hints, key: string): (r: Hints)
    ensures r.defaultNumType == h.defaultNumType
    ensures r.enums == SubHints(h.enums, key)
    ensures r.values == SubHints(h.values, key)
    ensures r.discriminator == SubHints(h.discriminator, key)
  {
    Hints(h.defaultNumType, SubHints(h.enums, key), SubHints(h.values, key), SubHints(h.discriminator, key))
  }

  function IsEnumActive(h: Hints): (r: bool)
    ensures r <==> exists i :: 0 <= i < |h.enums.paths| && h.enums.paths[i] == []
  {
    IsActive(h.enums)
  }

  function IsValuesActive(h: Hints): (r: bool)
    ensures r <==> exists i :: 0 <= i < |h.values.paths| && h.values.paths[i] == []
  {
    IsActive(h.values)
  }

  function PeekActiveDiscriminator(h: Hints): (r: (string, bool))
    ensures r.1 <==> exists i :: 0 <= i < |h.discriminator.paths| && |h.discriminator.paths[i]| == 1
  {
    PeekActive(h.discriminator)
  }

  /** Hints after descending through `keys`. */
  function HintsAlong(h: Hints, keys: seq<string>): Hints
    decreases |keys|
  {
    if |keys| == 0 then h else HintsAlong(HintsSubHints(h, keys[0]), keys[1..])
  }

  /** The three sets never interact, and the default never changes. */
  lemma {:induction false} HintsAlongIndependent(h: Hints, keys: seq<string>)
    ensures HintsAlong(h, keys) ==
      Hints(h.defaultNumType, SubHintsAlong(h.enums, keys), SubHintsAlong(h.values, keys),
            SubHintsAlong(h.discriminator, keys))
    decreases |keys|
  {
    if |keys| > 0 {
      HintsAlongIndependent(HintsSubHints(h, keys[0]), keys[1..]);
    }
  }

  /** Empty hints stay inactive at every position. */
  lemma NewHintsNeverActive(keys: seq<string>)
    ensures !IsEnumActive(HintsAlong(NewHints(), keys))
    ensures !IsValuesActive(HintsAlong(NewHints(), keys))
    ensures !PeekActiveDiscriminator(HintsAlong(NewHints(), keys)).1
  {
    HintsAlongIndependent(NewHints(), keys);
    ActiveIffMatched(NewHintSet(), keys);
    PeekIffOneLeft(NewHintSet(), keys);
  }
}

=== FILE: inference.dfy ===
/** The inferred-schema automaton (inferred_schema.go): a node is the schema
    inferred so far at one position, and `Infer` is the transition from a
    node and one decoded JSON sample to the next node. `IntoSchema`
    materialises a node as a JTD schema.

    The transition is written once, as `Step`, for two modes. `AsWritten` is
    the source's behaviour, and `Infer` and the whole inferrer use it.
    `Corrected` differs in exactly two places, both recorded as findings:
    a Nullable node re-infers its inner node on a non-null sample and keeps
    itself on null, and an Array node widens to Any on a non-array sample
    instead of panicking. */
module Inference {
  import opened Outcomes
  import opened JsonValues
  import opened JtdSchema
  import Numbers

  /** A genuine sum type for the source's tag plus payload fields. */
  datatype InferredSchema =
    | Unknown
    | Any
    | Boolean
    | Number(number: Numbers.InferredNumber)
    | String
    | Timestamp
    | Enum(members: set<string>)
    | Array(element: InferredSchema)
    | Properties(required: NodeMap, optional: NodeMap)
    | Values(valueSchema: InferredSchema)
    | Discriminator(tag: string, mapping: map<string, InferredSchema>)
    | Nullable(wrapped: InferredSchema)

  /** A Go `map[string]*InferredSchema`, which may be nil. */
  datatype NodeMap = Nil | Entries(entries: map<string, InferredSchema>)

  function Keys(m: NodeMap): set<string>
  {
    if m.Nil? then {} else m.entries.Keys
  }

  /** Where a sample key's sub-node lives: the required map first, then the
      optional map, otherwise a fresh Unknown node. */
  function Lookup(required: NodeMap, optional: NodeMap, k: string): InferredSchema
  {
    if k in Keys(required) then required.entries[k]
    else if k in Keys(optional) then optional.entries[k]
    else Unknown
  }

  datatype Mode = AsWritten | Corrected

  function AsNullable(o: Outcome<InferredSchema>): Outcome<InferredSchema>
  {
    match o
    case Ok(n) => Ok(Nullable(n))
    case Panic => Panic
    case OrderDependent => OrderDependent
  }

  function AsArray(o: Outcome<InferredSchema>): Outcome<InferredSchema>
  {
    match o
    case Ok(n) => Ok(Array(n))
    case Panic => Panic
    case OrderDependent => OrderDependent
  }

  /** The transition function, in the order the source tests its cases. */
  function Step(mode: Mode, ts: TimestampParser, node: InferredSchema, v: Json): Outcome<InferredSchema>
    decreases v, 2, node
  {
    if v.JNull? then
      if mode.Corrected? && node.Nullable? then Ok(node) else Ok(Nullable(node))
    else match node
      case Nullable(inner) =>
        if mode.AsWritten? then Ok(Nullable(node)) else AsNullable(Step(mode, ts, inner, v))
      case Unknown => FromUnknown(mode, ts, v)
      case Any => Ok(Any)
      case Boolean => Ok(if v.JBool? then Boolean else Any)
      case Number(acc) => Ok(if v.JNumber? then Number(Numbers.Infer(acc, v.n)) else Any)
      case Timestamp => Ok(if !v.JString? then Any else if ts(v.s) then Timestamp else String)
      case String => Ok(if v.JString? then String else Any)
      case Enum(_) => Ok(Any)
      case Array(element) =>
        if v.JArray? then AsArray(FoldItems(mode, ts, element, v.items))
        else if mode.AsWritten? then Panic
        else Ok(Any)
      case Properties(required, optional) =>
        if v.JObject? then MergeProperties(mode, ts, required, optional, v) else Ok(Any)
      case Values(valueSchema) =>
        if v.JObject? then ValuesFromObject(mode, ts, valueSchema, v) else Ok(Any)
      case Discriminator(tag, mapping) =>
        if v.JObject? && tag in v.fields && v.fields[tag].JString? then
          var key := v.fields[tag].s;
          // The branch's new node is stored and then discarded: only a panic escapes.
          var branch := if key in mapping then Step(mode, ts, mapping[key], v) else FromUnknown(mode, ts, v);
          if branch.Panic? then Panic else Ok(Any)
        else Ok(Any)
  }

  /** The first sample at a position, non-null. A null one is wrapped like
      any other node. An object gives a Properties node whose required map
      holds, for every key, that value fed to a fresh node, and whose
      optional map is nil. It panics iff one of those values panics. */
  function FromUnknown(mode: Mode, ts: TimestampParser, v: Json): (r: Outcome<InferredSchema>)
    ensures !v.JArray? && !v.JObject? ==> r.Ok?
    ensures v.JArray? && r.Ok? ==> r.value.Array?
    ensures v.JObject? ==>
      && (r.Panic? <==> exists k :: k in v.fields && Step(mode, ts, Unknown, v.fields[k]).Panic?)
      && (r.Ok? <==> forall k :: k in v.fields ==> Step(mode, ts, Unknown, v.fields[k]).Ok?)
    ensures v.JObject? && r.Ok? ==>
      && r.value.Properties? && r.value.optional.Nil? && r.value.required.Entries?
      && r.value.required.entries.Keys == v.fields.Keys
      && forall k :: k in v.fields ==> Step(mode, ts, Unknown, v.fields[k]) == Ok(r.value.required.entries[k])
    decreases v, 1
  {
    match v
    case JNull => Ok(Nullable(Unknown))
    case JBool(_) => Ok(Boolean)
    case JNumber(n) => Ok(Number(Numbers.Infer(Numbers.NewNumber(), n)))
    case JString(s) => Ok(if ts(s) then Timestamp else String)
    case JArray(items) => AsArray(FoldItems(mode, ts, Unknown, items))
    case JObject(fields) =>
      match Collect(FreshNodes(mode, ts, v))
      case Ok(required) => Ok(Properties(Entries(required), Nil))
      case Panic => Panic
      case OrderDependent => OrderDependent
  }

  /** Feeds array elements to a node, left to right. */
  function FoldItems(mode: Mode, ts: TimestampParser, node: InferredSchema, items: seq<Json>): Outcome<InferredSchema>
    decreases items
  {
    if |items| == 0 then Ok(node)
    else match Step(mode, ts, node, items[0])
      case Ok(next) => FoldItems(mode, ts, next, items[1..])
      case Panic => Panic
      case OrderDependent => OrderDependent
  }

  /** A Properties node meets an object. Required keys the sample lacks move
      to optional with their sub-node. Every sample key is merged into the
      sub-node where it lives, and an unseen key enters optional. A nil map
      stays nil until something is stored in it. */
  function MergeProperties(mode: Mode, ts: TimestampParser, required: NodeMap, optional: NodeMap, v: Json)
    : (r: Outcome<InferredSchema>)
    requires v.JObject?
    ensures r.Ok? ==> r.value.Properties?
    decreases v, 1
  {
    match Collect(MergeSubs(mode, ts, required, optional, v))
    case Ok(merged) => Ok(Properties(KeepRequired(required, merged), GrowOptional(required, optional, merged)))
    case Panic => Panic
    case OrderDependent => OrderDependent
  }

  /** The required keys the sample has, each with its merged node. A nil map
      stays nil. */
  function KeepRequired(required: NodeMap, merged: map<string, InferredSchema>): (r: NodeMap)
    ensures r.Nil? <==> required.Nil?
    ensures Keys(r) == Keys(required) * merged.Keys
    ensures forall k :: k in Keys(r) ==> r.entries[k] == merged[k]
  {
    if required.Nil? then Nil
    else Entries(map k | k in required.entries.Keys * merged.Keys :: merged[k])
  }

  /** The old optional keys, plus the required keys the sample lacks with
      their old node, plus the sample keys that were not required with their
      merged node. A nil map stays nil only if nothing is added. */
  function GrowOptional(required: NodeMap, optional: NodeMap, merged: map<string, InferredSchema>): (r: NodeMap)
    ensures r.Nil? <==> optional.Nil? && Keys(required) == merged.Keys
    ensures Keys(r) == Keys(optional) + (Keys(required) - merged.Keys) + (merged.Keys - Keys(required))
    ensures forall k :: k in merged.Keys - Keys(required) ==> r.entries[k] == merged[k]
    ensures forall k :: k in Keys(required) - merged.Keys ==> r.entries[k] == required.entries[k]
    ensures forall k :: k in Keys(optional) - Keys(required) - merged.Keys ==> r.entries[k] == optional.entries[k]
  {
    var missing := Keys(required) - merged.Keys;
    var unseen := merged.Keys - Keys(required);
    if optional.Nil? && missing == {} && unseen == {} then Nil
    else Entries(map k | k in Keys(optional) + missing + unseen ::
                   if k in unseen then merged[k] else if k in missing then required.entries[k] else optional.entries[k])
  }

  /** The sub-results of a merge, one per sample key. */
  function MergeSubs(mode: Mode, ts: TimestampParser, required: NodeMap, optional: NodeMap, v: Json)
    : map<string, Outcome<InferredSchema>>
    requires v.JObject?
    decreases v, 0
  {
    map k | k in v.fields :: Step(mode, ts, Lookup(required, optional, k), v.fields[k])
  }

  /** A merge fails exactly as its sub-merges do: it panics iff some sample
      key's merge panics, and succeeds iff every one succeeds. */
  lemma MergeOutcome(mode: Mode, ts: TimestampParser, required: NodeMap, optional: NodeMap, v: Json)
    requires v.JObject?
    ensures var r := MergeProperties(mode, ts, required, optional, v);
      && (r.Panic? <==> exists k :: k in v.fields && Step(mode, ts, Lookup(required, optional, k), v.fields[k]).Panic?)
      && (r.Ok? <==> forall k :: k in v.fields ==> Step(mode, ts, Lookup(required, optional, k), v.fields[k]).Ok?)
  {
    var subs := MergeSubs(mode, ts, required, optional, v);
    assert forall k :: k in v.fields ==> subs[k] == Step(mode, ts, Lookup(required, optional, k), v.fields[k]);
    var c := Collect(subs);
    assert MergeProperties(mode, ts, required, optional, v)
        == match c
           case Ok(merged) => Ok(Properties(KeepRequired(required, merged), GrowOptional(required, optional, merged)))
           case Panic => Panic
           case OrderDependent => OrderDependent;
  }

  /** Where every key ends up after a successful merge:
      - required keys the sample lacks move to optional, sub-node kept;
      - required keys the sample has stay required, merged with the sample;
      - sample keys not required end up optional, merged where they lived
        (or from a fresh node);
      - other optional keys are untouched.
      So no key moves from optional to required, the union of the key sets
      is the old union plus the sample's keys, and disjoint key sets stay
      disjoint. */
  lemma MergeShape(mode: Mode, ts: TimestampParser, required: NodeMap, optional: NodeMap, v: Json)
    requires v.JObject?
    ensures var r := MergeProperties(mode, ts, required, optional, v);
      r.Ok? ==>
      && Keys(r.value.required) == Keys(required) * v.fields.Keys
      && Keys(r.value.optional) == Keys(optional) + (Keys(required) - v.fields.Keys) + (v.fields.Keys - Keys(required))
      && (Keys(required) !! Keys(optional) ==> Keys(r.value.required) !! Keys(r.value.optional))
      && (r.value.required.Nil? <==> required.Nil?)
      && (r.value.optional.Nil? <==> optional.Nil? && Keys(required) == v.fields.Keys)
      && (forall k :: k in Keys(required) - v.fields.Keys ==> r.value.optional.entries[k] == required.entries[k])
      && (forall k :: k in Keys(optional) - Keys(required) - v.fields.Keys ==>
            r.value.optional.entries[k] == optional.entries[k])
      && (forall k :: k in Keys(required) * v.fields.Keys ==>
            Step(mode, ts, required.entries[k], v.fields[k]) == Ok(r.value.required.entries[k]))
      && (forall k :: k in v.fields.Keys - Keys(required) ==>
            Step(mode, ts, Lookup(required, optional, k), v.fields[k]) == Ok(r.value.optional.entries[k]))
  {
    var subs := MergeSubs(mode, ts, required, optional, v);
    assert forall k :: k in v.fields ==> subs[k] == Step(mode, ts, Lookup(required, optional, k), v.fields[k]);
    var c := Collect(subs);
    if c.Ok? {
      var merged := c.value;
      assert merged.Keys == v.fields.Keys;
      var r := Properties(KeepRequired(required, merged), GrowOptional(required, optional, merged));
      assert MergeProperties(mode, ts, required, optional, v) == Ok(r);
      forall k | k in Keys(required) * v.fields.Keys
        ensures Step(mode, ts, required.entries[k], v.fields[k]) == Ok(r.required.entries[k])
      {
        assert Lookup(required, optional, k) == required.entries[k];
      }
    } else {
      assert !MergeProperties(mode, ts, required, optional, v).Ok?;
    }
  }

  /** A Values node meets an object. The source keeps only the fresh node of
      the value its map iteration visits last, and forgets the old one. The
      result is fixed here when the object is empty or all its values give
      the same node. */
  function ValuesFromObject(mode: Mode, ts: TimestampParser, valueSchema: InferredSchema, v: Json)
    : (r: Outcome<InferredSchema>)
    requires v.JObject?
    ensures r.Panic? <==> exists k :: k in v.fields && Step(mode, ts, Unknown, v.fields[k]).Panic?
    ensures r.Ok? ==> r.value.Values?
    ensures v.fields == map[] ==> r == Ok(Values(valueSchema))
    ensures r.Ok? && v.fields != map[] ==>
      forall k :: k in v.fields ==> Step(mode, ts, Unknown, v.fields[k]) == Ok(r.value.valueSchema)
    decreases v, 1
  {
    var subs := FreshNodes(mode, ts, v);
    if exists k :: k in subs && subs[k].Panic? then Panic
    else if subs == map[] then Ok(Values(valueSchema))
    else if forall k, k' | k in subs && k' in subs :: subs[k] == subs[k'] then
      var k :| k in subs;
      assert forall k' :: k' in subs ==> subs[k'] == subs[k];
      if subs[k].Ok? then Ok(Values(subs[k].value)) else OrderDependent
    else OrderDependent
  }

  /** Every value of an object, fed to a fresh node. */
  function FreshNodes(mode: Mode, ts: TimestampParser, v: Json): (r: map<string, Outcome<InferredSchema>>)
    requires v.JObject?
    ensures r.Keys == v.fields.Keys
    ensures forall k :: k in v.fields ==> r[k] == Step(mode, ts, Unknown, v.fields[k])
    decreases v, 0
  {
    map k | k in v.fields :: Step(mode, ts, Unknown, v.fields[k])
  }

  /** InferredSchema.Infer as written, case by case. */
  function Infer(ts: TimestampParser, node: InferredSchema, v: Json): (r: Outcome<InferredSchema>)
    ensures v.JNull? ==> r == Ok(Nullable(node))
    ensures !v.JNull? && node.Nullable? ==> r == Ok(Nullable(node))
    ensures !v.JNull? && (node.Any? || node.Enum?) ==> r == Ok(Any)
    ensures !v.JNull? && node.Discriminator? ==> r == Ok(Any) || r == Panic
    ensures !v.JNull? && node.Discriminator? ==>
      (r == Panic <==>
        && v.JObject? && node.tag in v.fields && v.fields[node.tag].JString?
        && (if v.fields[node.tag].s in node.mapping
            then Step(AsWritten, ts, node.mapping[v.fields[node.tag].s], v)
            else FromUnknown(AsWritten, ts, v)).Panic?)
    ensures node.Unknown? && v.JBool? ==> r == Ok(Boolean)
    ensures node.Unknown? && v.JNumber? ==> r == Ok(Number(Numbers.Infer(Numbers.NewNumber(), v.n)))
    ensures node.Unknown? && v.JString? ==> r == Ok(if ts(v.s) then Timestamp else String)
    ensures node.Unknown? && v.JArray? ==> r == AsArray(FoldItems(AsWritten, ts, Unknown, v.items))
    ensures node.Unknown? && v.JObject? ==>
      (r.Panic? <==> exists k :: k in v.fields && Step(AsWritten, ts, Unknown, v.fields[k]).Panic?)
    ensures node.Unknown? && v.JObject? && r.Ok? ==>
      r.value.Properties? && r.value.required.Entries? && r.value.required.entries.Keys == v.fields.Keys
      && r.value.optional.Nil?
      && forall k :: k in v.fields ==> Step(AsWritten, ts, Unknown, v.fields[k]) == Ok(r.value.required.entries[k])
    ensures node.Boolean? && !v.JNull? ==> r == Ok(if v.JBool? then Boolean else Any)
    ensures node.Number? && !v.JNull? ==>
      r == Ok(if v.JNumber? then Number(Numbers.Infer(node.number, v.n)) else Any)
    ensures node.String? && !v.JNull? ==> r == Ok(if v.JString? then String else Any)
    ensures node.Timestamp? && v.JString? ==> r == Ok(if ts(v.s) then Timestamp else String)
    ensures node.Timestamp? && !v.JNull? && !v.JString? ==> r == Ok(Any)
    ensures node.Array? && v.JArray? ==> r == AsArray(FoldItems(AsWritten, ts, node.element, v.items))
    ensures node.Array? && !v.JNull? && !v.JArray? ==> r == Panic
    ensures node.Properties? && v.JObject? ==> r == MergeProperties(AsWritten, ts, node.required, node.optional, v)
    ensures node.Values? && v.JObject? ==> r == ValuesFromObject(AsWritten, ts, node.valueSchema, v)
    ensures (node.Properties? || node.Values?) && !v.JNull? && !v.JObject? ==> r == Ok(Any)
  {
    if node.Unknown? && !v.JNull? then
      assert Step(AsWritten, ts, node, v) == FromUnknown(AsWritten, ts, v);
      FromUnknown(AsWritten, ts, v)
    else
      Step(AsWritten, ts, node, v)
  }

  /** Feeding array elements is a left fold: feeding `a + b` is feeding `a`,
      then `b` to the result. */
  lemma {:induction false} FoldItemsAppend(mode: Mode, ts: TimestampParser, node: InferredSchema, a: seq<Json>, b: seq<Json>)
    ensures var first := FoldItems(mode, ts, node, a);
      FoldItems(mode, ts, node, a + b) == if first.Ok? then FoldItems(mode, ts, first.value, b) else first
    decreases |a|
  {
    if |a| == 0 {
      assert a + b == b;
    } else {
      assert (a + b)[0] == a[0];
      assert (a + b)[1..] == a[1..] + b;
      var s := Step(mode, ts, node, a[0]);
      if s.Ok? {
        FoldItemsAppend(mode, ts, s.value, a[1..], b);
      }
    }
  }

  /** Materialises a node. Unknown, Any and Discriminator give the empty
      schema. A nil properties map stays nil. */
  function IntoSchema(node: InferredSchema): (s: Schema)
    ensures s.nullable <==> node.Nullable?
    ensures AtMostOneForm(s)
    ensures node.Unknown? || node.Any? || node.Discriminator? ==> s == Empty
    ensures node.Enum? ==> s == Empty.(enumValues := Some(node.members))
    ensures node.Properties? ==>
      && (s.properties.Some? <==> node.required.Entries?)
      && (s.optionalProperties.Some? <==> node.optional.Entries?)
      && (s.properties.Some? ==> s.properties.value.Keys == Keys(node.required))
      && (s.optionalProperties.Some? ==> s.optionalProperties.value.Keys == Keys(node.optional))
    ensures node.Nullable? ==> s == IntoSchema(node.wrapped).(nullable := true)
  {
    match node
    case Unknown => Empty
    case Any => Empty
    case Boolean => Empty.(typ := Some(TypeBoolean))
    case Number(acc) => Empty.(typ := Some(Numbers.IntoType(acc, Numbers.Uint8)))
    case String => Empty.(typ := Some(TypeString))
    case Timestamp => Empty.(typ := Some(TypeTimestamp))
    case Enum(members) => Empty.(enumValues := Some(members))
    case Array(element) => Empty.(elements := Some(IntoSchema(element)))
    case Properties(required, optional) =>
      Empty.(
        properties :=
          if required.Nil? then None
          else Some(map k | k in required.entries :: IntoSchema(required.entries[k])),
        optionalProperties :=
          if optional.Nil? then None
          else Some(map k | k in optional.entries :: IntoSchema(optional.entries[k])))
    case Values(valueSchema) => Empty.(values := Some(IntoSchema(valueSchema)))
    case Discriminator(_, _) => Empty
    case Nullable(inner) => IntoSchema(inner).(nullable := true)
  }

  /** What each node materialises to, case by case: a scalar node gives its
      JTD type, a number node the type its accumulator resolves to under the
      uint8 default, an array node the elements form, a values node the
      values form, and every property entry the schema of its sub-node. */
  lemma IntoSchemaCases(node: InferredSchema)
    ensures node.Boolean? ==> IntoSchema(node) == Empty.(typ := Some(TypeBoolean))
    ensures node.String? ==> IntoSchema(node) == Empty.(typ := Some(TypeString))
    ensures node.Timestamp? ==> IntoSchema(node) == Empty.(typ := Some(TypeTimestamp))
    ensures node.Number? ==> IntoSchema(node) == Empty.(typ := Some(Numbers.IntoType(node.number, Numbers.Uint8)))
    ensures node.Array? ==> IntoSchema(node) == Empty.(elements := Some(IntoSchema(node.element)))
    ensures node.Values? ==> IntoSchema(node) == Empty.(values := Some(IntoSchema(node.valueSchema)))
    ensures node.Properties? ==>
      && IntoSchema(node).typ.None? && IntoSchema(node).elements.None? && IntoSchema(node).values.None?
      && (forall k :: k in Keys(node.required) ==>
            IntoSchema(node).properties.value[k] == IntoSchema(node.required.entries[k]))
      && (forall k :: k in Keys(node.optional) ==>
            IntoSchema(node).optionalProperties.value[k] == IntoSchema(node.optional.entries[k]))
  {
  }
}

=== FILE: inferrer.dfy ===
/** The inferrer (inferrer.go): a left fold of the transition over rows,
    starting from an Unknown node. The source's behaviour is mode
    AsWritten. The corrected mode is the same fold over the corrected
    transition, and it is the one whose schema provably accepts every
    row. */
module Inferrers {
  import opened Outcomes
  import opened JsonValues
  import opened JtdSchema
  import opened Inference
  import opened InferenceInvariants
  import Soundness
  import Numbers

  datatype Inferrer = Inferrer(inference: InferredSchema)

  function NewInferrer(): (r: Inferrer)
    ensures IntoSchema(r) == Empty
  {
    Inferrer(Unknown)
  }

  /** Feeds one row. A panic in the transition is the inferrer's panic. */
  function Infer(mode: Mode, ts: TimestampParser, inf: Inferrer, v: Json): (r: Outcome<Inferrer>)
    ensures r.Ok? <==> Step(mode, ts, inf.inference, v).Ok?
    ensures r.Ok? ==> r.value.inference == Step(mode, ts, inf.inference, v).value
    ensures r.Panic? <==> Step(mode, ts, inf.inference, v).Panic?
  {
    match Step(mode, ts, inf.inference, v)
    case Ok(n) => Ok(Inferrer(n))
    case Panic => Panic
    case OrderDependent => OrderDependent
  }

  function IntoSchema(inf: Inferrer): Schema
  {
    Inference.IntoSchema(inf.inference)
  }

  /** Feeds rows one after another from `inf`, stopping at the first
      failure, as a caller looping over `Infer` would. */
  function InferRows(mode: Mode, ts: TimestampParser, inf: Inferrer, rows: seq<Json>): Outcome<Inferrer>
    decreases |rows|
  {
    if |rows| == 0 then Ok(inf)
    else match Infer(mode, ts, inf, rows[0])
      case Ok(next) => InferRows(mode, ts, next, rows[1..])
      case Panic => Panic
      case OrderDependent => OrderDependent
  }

  /** Feeding rows one by one is the left fold of the node transition, the
      same fold an array's elements go through. */
  lemma {:induction false} InferRowsIsFold(mode: Mode, ts: TimestampParser, inf: Inferrer, rows: seq<Json>)
    ensures var r := InferRows(mode, ts, inf, rows);
      var f := FoldItems(mode, ts, inf.inference, rows);
      (r.Ok? <==> f.Ok?) && (r.Panic? <==> f.Panic?) && (r.Ok? ==> r.value.inference == f.value)
    decreases |rows|
  {
    if |rows| > 0 {
      var s := Step(mode, ts, inf.inference, rows[0]);
      if s.Ok? {
        InferRowsIsFold(mode, ts, Inferrer(s.value), rows[1..]);
      }
    }
  }

  /** Feeding `a + b` is feeding `a`, then `b`. */
  lemma InferRowsAppend(mode: Mode, ts: TimestampParser, inf: Inferrer, a: seq<Json>, b: seq<Json>)
    ensures var first := InferRows(mode, ts, inf, a);
      first.Ok? ==> InferRows(mode, ts, inf, a + b) == InferRows(mode, ts, first.value, b)
  {
    var first := InferRows(mode, ts, inf, a);
    if first.Ok? {
      InferRowsIsFold(mode, ts, inf, a);
      InferRowsIsFold(mode, ts, inf, a + b);
      InferRowsIsFold(mode, ts, first.value, b);
      FoldItemsAppend(mode, ts, inf.inference, a, b);
      InferRowsDeterminedByNode(mode, ts, inf, a + b);
      InferRowsDeterminedByNode(mode, ts, first.value, b);
    }
  }

  /** An inferrer is its node, so the fold's outcome fixes the result. */
  lemma InferRowsDeterminedByNode(mode: Mode, ts: TimestampParser, inf: Inferrer, rows: seq<Json>)
    ensures var f := FoldItems(mode, ts, inf.inference, rows);
      InferRows(mode, ts, inf, rows) == match f
        case Ok(n) => Ok(Inferrer(n))
        case Panic => Panic
        case OrderDependent => OrderDependent
  {
    InferRowsIsFold(mode, ts, inf, rows);
  }

  /** The inferrer's guarantee, for the corrected transition: inference over
      any rows from a new inferrer succeeds, and the schema accepts every
      row. */
  lemma CorrectedInferrerSound(ts: TimestampParser, rows: seq<Json>)
    ensures InferRows(Corrected, ts, NewInferrer(), rows).Ok?
    ensures forall i :: 0 <= i < |rows| ==>
      Accepts(ts, IntoSchema(InferRows(Corrected, ts, NewInferrer(), rows).value), rows[i])
  {
    InferRowsIsFold(Corrected, ts, NewInferrer(), rows);
    Soundness.CorrectedSchemaAcceptsRows(ts, rows);
  }

  /** As written, rows never make the outcome depend on map iteration
      order, and the node never holds Enum, Values or Discriminator. */
  lemma AsWrittenNeverOrderDependent(ts: TimestampParser, rows: seq<Json>)
    ensures !InferRows(AsWritten, ts, NewInferrer(), rows).OrderDependent?
    ensures InferRows(AsWritten, ts, NewInferrer(), rows).Ok? ==>
      Inferable(InferRows(AsWritten, ts, NewInferrer(), rows).value.inference)
  {
    InferRowsIsFold(AsWritten, ts, NewInferrer(), rows);
    FoldInferable(AsWritten, ts, Unknown, rows);
  }

  /** The row {"name": "Joe", "age": 42, "hobbies": ["code", "animals"]}. */
  const JoeRow: Json := JObject(map["name" := JString("Joe"), "age" := JNumber(42.0),
                                    "hobbies" := JArray([JString("code"), JString("animals")])])

  const JoeAge: Numbers.InferredNumber := Numbers.InferredNumber(0.0, 42.0, true)

  const JoeNode: InferredSchema :=
    Properties(Entries(map["name" := String, "age" := Number(JoeAge), "hobbies" := Array(String)]), Nil)

  const JoeSchema: Schema := Empty.(properties := Some(map[
    "name" := Empty.(typ := Some(TypeString)),
    "age" := Empty.(typ := Some(TypeUint8)),
    "hobbies" := Empty.(elements := Some(Empty.(typ := Some(TypeString))))]))

  const JoeHobbies: seq<Json> := [JString("code"), JString("animals")]

  lemma JoeHobbiesNode(ts: TimestampParser)
    requires !ts("code") && !ts("animals")
    ensures FoldItems(AsWritten, ts, Unknown, JoeHobbies) == Ok(String)
  {
    assert Step(AsWritten, ts, Unknown, JoeHobbies[0]) == Ok(String);
    assert Step(AsWritten, ts, String, JoeHobbies[1]) == Ok(String);
    assert JoeHobbies[1..][1..] == [];
  }

  /** Each field of the row, fed to a fresh node. */
  lemma JoeFieldNodes(ts: TimestampParser)
    requires !ts("Joe") && !ts("code") && !ts("animals")
    ensures (map k | k in JoeRow.fields :: Step(AsWritten, ts, Unknown, JoeRow.fields[k]))
         == map["name" := Ok(String), "age" := Ok(Number(JoeAge)), "hobbies" := Ok(Array(String))]
  {
    JoeHobbiesNode(ts);
    assert JoeRow.fields == map["name" := JString("Joe"), "age" := JNumber(42.0), "hobbies" := JArray(JoeHobbies)];
    assert Step(AsWritten, ts, Unknown, JString("Joe")) == Ok(String);
    assert Step(AsWritten, ts, Unknown, JNumber(42.0)) == Ok(Number(JoeAge));
    assert Step(AsWritten, ts, Unknown, JArray(JoeHobbies)) == Ok(Array(String));
  }

  lemma JoeCollect()
    ensures Collect(map["name" := Ok(String), "age" := Ok(Number(JoeAge)), "hobbies" := Ok(Array(String))])
         == Ok(JoeNode.required.entries)
  {
    var subs := map["name" := Ok(String), "age" := Ok(Number(JoeAge)), "hobbies" := Ok(Array(String))];
    var nodes := JoeNode.required.entries;
    assert subs.Keys == nodes.Keys == {"name", "age", "hobbies"};
    assert Collect(subs).Ok?;
    assert Collect(subs).value["name"] == nodes["name"];
    assert Collect(subs).value["age"] == nodes["age"];
    assert Collect(subs).value["hobbies"] == nodes["hobbies"];
    assert Collect(subs).value == nodes;
  }

  /** The node the row builds: every key required, none optional. */
  lemma JoeRowNode(ts: TimestampParser)
    requires !ts("Joe") && !ts("code") && !ts("animals")
    ensures FoldItems(AsWritten, ts, Unknown, [JoeRow]) == Ok(JoeNode)
  {
    JoeFieldNodes(ts);
    JoeCollect();
    assert FromUnknown(AsWritten, ts, JoeRow) == Ok(JoeNode);
    assert [JoeRow][1..] == [];
  }

  /** Each field node's schema on its own. */
  lemma JoeFieldSchemas()
    ensures Inference.IntoSchema(String) == Empty.(typ := Some(TypeString))
    ensures Inference.IntoSchema(Number(JoeAge)) == Empty.(typ := Some(TypeUint8))
    ensures Inference.IntoSchema(Array(String)) == Empty.(elements := Some(Empty.(typ := Some(TypeString))))
  {
    assert Numbers.ContainedBy(JoeAge, Numbers.Uint8);
  }

  /** The node materialises to string, uint8 and elements-of-string
      properties with no optional properties. */
  lemma JoeNodeSchema()
    ensures Inference.IntoSchema(JoeNode) == JoeSchema
  {
    JoeFieldSchemas();
    var nodes := JoeNode.required.entries;
    var schemas := map k | k in nodes :: Inference.IntoSchema(nodes[k]);
    var want := JoeSchema.properties.value;
    assert schemas.Keys == want.Keys == {"name", "age", "hobbies"};
    assert schemas["name"] == want["name"];
    assert schemas["age"] == want["age"];
    assert schemas["hobbies"] == want["hobbies"];
    assert schemas == want;
  }

  /** The single Joe row, none of whose strings is a timestamp, gives
      required name: string, age: uint8, hobbies: elements string, and no
      optional properties. */
  lemma JoeRowVector(ts: TimestampParser)
    requires !ts("Joe") && !ts("code") && !ts("animals")
    ensures InferRows(AsWritten, ts, NewInferrer(), [JoeRow]) == Ok(Inferrer(JoeNode))
    ensures IntoSchema(Inferrer(JoeNode)) == JoeSchema
  {
    JoeRowNode(ts);
    InferRowsDeterminedByNode(AsWritten, ts, NewInferrer(), [JoeRow]);
    JoeNodeSchema();
  }

  /** A single number row gives the accumulator that saw only that number. */
  lemma SingleNumberRow(ts: TimestampParser, x: real)
    ensures InferRows(AsWritten, ts, NewInferrer(), [JNumber(x)])
         == Ok(Inferrer(Number(Numbers.Infer(Numbers.NewNumber(), x))))
  {
    assert Step(AsWritten, ts, Unknown, JNumber(x)) == Ok(Number(Numbers.Infer(Numbers.NewNumber(), x)));
    assert [JNumber(x)][1..] == [];
    InferRowsDeterminedByNode(AsWritten, ts, NewInferrer(), [JNumber(x)]);
  }

  /** The type a single-number row materialises to. */
  function SingleNumberType(x: real): Option<JtdType>
  {
    IntoSchema(Inferrer(Number(Numbers.Infer(Numbers.NewNumber(), x)))).typ
  }

  /** 52 and 1.0 give uint8: an integral float is an integer sample. */
  lemma SingleNumberVectorsUint8()
    ensures SingleNumberType(52.0) == Some(TypeUint8)
    ensures SingleNumberType(1.0) == Some(TypeUint8)
  {
    assert Numbers.ContainedBy(Numbers.InferredNumber(0.0, 52.0, true), Numbers.Uint8);
    assert Numbers.ContainedBy(Numbers.InferredNumber(0.0, 1.0, true), Numbers.Uint8);
  }

  /** -1 gives int8. */
  lemma SingleNumberVectorsInt8()
    ensures SingleNumberType(-1.0) == Some(TypeInt8)
  {
    var acc := Numbers.InferredNumber(-1.0, 0.0, true);
    assert !Numbers.ContainedBy(acc, Numbers.Uint8);
    assert Numbers.ContainedBy(acc, Numbers.Int8);
    Numbers.IntoTypeFallback(acc, Numbers.Uint8);
    assert Numbers.IntegerCandidates[1] == Numbers.Int8;
  }

  /** The least int32 gives int32. */
  lemma SingleNumberVectorsInt32()
    ensures SingleNumberType(-2147483648.0) == Some(TypeInt32)
  {
    var acc := Numbers.InferredNumber(-2147483648.0, 0.0, true);
    assert !Numbers.ContainedBy(acc, Numbers.Uint8);
    assert !Numbers.ContainedBy(acc, Numbers.Int8);
    assert !Numbers.ContainedBy(acc, Numbers.Uint16);
    assert !Numbers.ContainedBy(acc, Numbers.Int16);
    assert !Numbers.ContainedBy(acc, Numbers.Uint32);
    assert Numbers.ContainedBy(acc, Numbers.Int32);
    Numbers.IntoTypeFallback(acc, Numbers.Uint8);
    assert Numbers.IntegerCandidates[5] == Numbers.Int32;
  }

  /** 1.1 gives float64. */
  lemma SingleNumberVectorsFloat()
    ensures SingleNumberType(1.1) == Some(TypeFloat64)
  {
    assert !IsIntegral(1.1) by {
      assert (1.1).Floor == 1;
    }
    Numbers.NonIntegralYieldsFloat(Numbers.InferredNumber(0.0, 1.1, false), Numbers.Uint8);
  }
}

=== FILE: invariants.dfy ===
/** The shape every node built by the inferrer keeps: Infer never builds
    Enum, Values or Discriminator nodes, a Properties node's required map is
    never nil and its two key sets stay disjoint, and every number
    accumulator stays reachable from a fresh one. On such nodes neither mode
    ever depends on map iteration order, and the corrected mode never
    panics. */
module InferenceInvariants {
  import opened Outcomes
  import opened JsonValues
  import opened Inference
  import Numbers

  predicate Inferable(n: InferredSchema)
    decreases n
  {
    match n
    case Unknown => true
    case Any => true
    case Boolean => true
    case Number(acc) => Numbers.Reachable(acc)
    case String => true
    case Timestamp => true
    case Enum(_) => false
    case Array(element) => Inferable(element)
    case Properties(required, optional) =>
      && required.Entries?
      && Keys(required) !! Keys(optional)
      && (forall k :: k in required.entries ==> Inferable(required.entries[k]))
      && (forall k :: k in Keys(optional) ==> Inferable(optional.entries[k]))
    case Values(_) => false
    case Discriminator(_, _) => false
    case Nullable(inner) => Inferable(inner)
  }

  /** What an outcome from an inferable node looks like. */
  predicate StaysInferable(mode: Mode, o: Outcome<InferredSchema>)
  {
    && !o.OrderDependent?
    && (mode.Corrected? ==> o.Ok?)
    && (o.Ok? ==> Inferable(o.value))
  }

  lemma LookupInferable(required: NodeMap, optional: NodeMap, k: string)
    requires Inferable(Properties(required, optional))
    ensures Inferable(Lookup(required, optional, k))
  {
  }

  lemma {:induction false} StepInferable(mode: Mode, ts: TimestampParser, n: InferredSchema, v: Json)
    requires Inferable(n)
    ensures StaysInferable(mode, Step(mode, ts, n, v))
    decreases v, 2, n
  {
    if !v.JNull? {
      match n
      case Nullable(inner) =>
        if mode.Corrected? {
          StepInferable(mode, ts, inner, v);
        }
      case Unknown =>
        FromUnknownInferable(mode, ts, v);
      case Number(acc) =>
        if v.JNumber? {
          Numbers.InferKeepsReachable(acc, v.n);
        }
      case Array(element) =>
        if v.JArray? {
          FoldInferable(mode, ts, element, v.items);
        }
      case Properties(required, optional) =>
        if v.JObject? {
          MergeInferable(mode, ts, required, optional, v);
        }
      case _ =>
    }
  }

  lemma {:induction false} FromUnknownInferable(mode: Mode, ts: TimestampParser, v: Json)
    ensures StaysInferable(mode, FromUnknown(mode, ts, v))
    decreases v, 1
  {
    match v
    case JNumber(x) =>
      Numbers.InferKeepsReachable(Numbers.NewNumber(), x);
    case JArray(items) =>
      FoldInferable(mode, ts, Unknown, items);
    case JObject(fields) =>
      var subs := map k | k in fields :: Step(mode, ts, Unknown, fields[k]);
      forall k | k in fields
        ensures StaysInferable(mode, subs[k])
      {
        StepInferable(mode, ts, Unknown, fields[k]);
      }
    case _ =>
  }

  lemma {:induction false} FoldInferable(mode: Mode, ts: TimestampParser, n: InferredSchema, items: seq<Json>)
    requires Inferable(n)
    ensures StaysInferable(mode, FoldItems(mode, ts, n, items))
    decreases items
  {
    if |items| > 0 {
      StepInferable(mode, ts, n, items[0]);
      var s := Step(mode, ts, n, items[0]);
      if s.Ok? {
        FoldInferable(mode, ts, s.value, items[1..]);
      }
    }
  }

  lemma {:induction false} MergeInferable(mode: Mode, ts: TimestampParser, required: NodeMap, optional: NodeMap, v: Json)
    requires v.JObject? && Inferable(Properties(required, optional))
    ensures StaysInferable(mode, MergeProperties(mode, ts, required, optional, v))
    decreases v, 0
  {
    forall k | k in v.fields
      ensures StaysInferable(mode, Step(mode, ts, Lookup(required, optional, k), v.fields[k]))
    {
      LookupInferable(required, optional, k);
      StepInferable(mode, ts, Lookup(required, optional, k), v.fields[k]);
    }
    MergeOutcome(mode, ts, required, optional, v);
    MergeShape(mode, ts, required, optional, v);
    var r := MergeProperties(mode, ts, required, optional, v);
    if r.Ok? {
      var n := r.value;
      forall k | k in Keys(n.required)
        ensures Inferable(n.required.entries[k])
      {
        assert Lookup(required, optional, k) == required.entries[k];
      }
      forall k | k in Keys(n.optional)
        ensures Inferable(n.optional.entries[k])
      {
        if k in v.fields && k !in Keys(required) {
          assert Step(mode, ts, Lookup(required, optional, k), v.fields[k]) == Ok(n.optional.entries[k]);
        }
      }
    }
  }
}

=== FILE: json.dfy ===
/** Decoded JSON values, as Go's encoding/json hands them to the inferrer:
    nil, bool, float64, string, []any and map[string]any. */
module JsonValues {

  datatype Json =
    | JNull
    | JBool(b: bool)
    | JNumber(n: real)
    | JString(s: string)
    | JArray(items: seq<Json>)
    | JObject(fields: map<string, Json>)

  /** Go's `float64(int(n)) == n`, reading float64 as `real`. Integer overflow
      in the conversion is not modelled. */
  predicate IsIntegral(n: real)
  {
    n.Floor as real == n
  }

  /** Whether `time.Parse(time.RFC3339, s)` succeeds. Go's parser is not part
      of this model, so every operation that needs it takes one as a
      parameter. */
  type TimestampParser = string -> bool
}

=== FILE: jtd_schema.dfy ===
/** The public JSON Type Definition schema record (schema.go), restricted to
    the fields the inferrer sets, and the validation semantics of RFC 8927
    (section 3.3) for those forms, used as the independent meaning of a
    materialised schema. */
module JtdSchema {
  import opened Outcomes
  import opened JsonValues

  /** jtd.Type values the inferrer can emit. */
  datatype JtdType =
    | TypeBoolean | TypeString | TypeTimestamp
    | TypeUint8 | TypeInt8 | TypeUint16 | TypeInt16 | TypeUint32 | TypeInt32
    | TypeFloat32 | TypeFloat64

  /** A Go `Schema` value. `None` is Go's zero value (empty type string, nil
      slice, nil pointer, nil map). The enum list is kept as a set, because the
      source builds it from a map in random order. */
  datatype Schema = Schema(
    nullable: bool,
    typ: Option<JtdType>,
    enumValues: Option<set<string>>,
    elements: Option<Schema>,
    properties: Option<map<string, Schema>>,
    optionalProperties: Option<map<string, Schema>>,
    values: Option<Schema>)

  /** `Schema{}`: the empty form, which accepts every instance. */
  const Empty: Schema := Schema(false, None, None, None, None, None, None)

  /** A JTD schema has one form. The inferrer never sets two of them. */
  predicate AtMostOneForm(s: Schema)
  {
    var forms := (if s.typ.Some? then 1 else 0)
      + (if s.enumValues.Some? then 1 else 0)
      + (if s.elements.Some? then 1 else 0)
      + (if s.properties.Some? || s.optionalProperties.Some? then 1 else 0)
      + (if s.values.Some? then 1 else 0);
    forms <= 1
  }

  /** Integer JTD types accept numbers with no fractional part in range. */
  predicate IntegerIn(v: Json, lo: int, hi: int)
  {
    v.JNumber? && IsIntegral(v.n) && lo as real <= v.n <= hi as real
  }

  /** The "type" form (RFC 8927, section 3.3.4). The timestamp check is the
      same `ts` the inference uses for `time.Parse`, so results that combine
      the two assume Go's parser and the validator agree. */
  predicate TypeAccepts(ts: TimestampParser, t: JtdType, v: Json)
  {
    match t
    case TypeBoolean => v.JBool?
    case TypeString => v.JString?
    case TypeTimestamp => v.JString? && ts(v.s)
    case TypeUint8 => IntegerIn(v, 0, 255)
    case TypeInt8 => IntegerIn(v, -128, 127)
    case TypeUint16 => IntegerIn(v, 0, 65535)
    case TypeInt16 => IntegerIn(v, -32768, 32767)
    case TypeUint32 => IntegerIn(v, 0, 4294967295)
    case TypeInt32 => IntegerIn(v, -2147483648, 2147483647)
    case TypeFloat32 => v.JNumber?
    case TypeFloat64 => v.JNumber?
  }

  /** Whether instance `v` is valid against `s`. This covers the empty,
      type, enum, elements, properties and values forms with "nullable", and
      no additional properties. */
  predicate Accepts(ts: TimestampParser, s: Schema, v: Json)
    decreases v
  {
    if s.nullable && v.JNull? then true
    else if s.typ.Some? then TypeAccepts(ts, s.typ.value, v)
    else if s.enumValues.Some? then v.JString? && v.s in s.enumValues.value
    else if s.elements.Some? then
      v.JArray? && forall i :: 0 <= i < |v.items| ==> Accepts(ts, s.elements.value, v.items[i])
    else if s.properties.Some? || s.optionalProperties.Some? then
      var req := if s.properties.Some? then s.properties.value else map[];
      var opt := if s.optionalProperties.Some? then s.optionalProperties.value else map[];
      && v.JObject?
      && (forall k :: k in req ==> k in v.fields)
      && (forall k :: k in v.fields ==>
            if k in req then Accepts(ts, req[k], v.fields[k])
            else k in opt && Accepts(ts, opt[k], v.fields[k]))
    else if s.values.Some? then
      v.JObject? && forall k :: k in v.fields ==> Accepts(ts, s.values.value, v.fields[k])
    else true
  }

  /** Setting "nullable" only adds null to what a schema accepts. */
  lemma NullableWidens(ts: TimestampParser, s: Schema, v: Json)
    requires Accepts(ts, s, v)
    ensures Accepts(ts, s.(nullable := true), v)
  {
  }
}

=== FILE: numbers.dfy ===
/** The numeric accumulator of one schema position (inferred_number.go):
    the envelope [min, max] of the numbers seen, whether all were integral,
    and the narrowing of that envelope to a JTD numeric type. float64 is read
    as `real`; NaN and the infinities are not modelled. */
module Numbers {
  import opened Outcomes
  import opened JsonValues
  import opened JtdSchema

  /** NumType, in declaration order. */
  datatype NumType = Uint8 | Int8 | Uint16 | Int16 | Uint32 | Int32 | Float32 | Float64

  /** math.MinInt64 converted to float64 (exact). */
  const MinInt64: real := -9223372036854775808.0

  /** math.MaxFloat64, that is (2^53 - 1) * 2^971 (exact). */
  const MaxFloat64: real := 179769313486231570814527423731704356798070567525844996598917476803157260780028538760589558632766878171540458953514382464234321326889464182768467546703537516986049910576551282076245490090389328944075868508455133942304583236903222948165808559332123348274797826204144723168738177180919299881250404026184124858368.0

  predicate IsFloat(t: NumType)
  {
    t == Float32 || t == Float64
  }

  /** The (min, max) bounds the source attaches to each NumType. Note that the
      float types use MinInt64 as their lower bound. */
  function AsRange(t: NumType): (real, real)
  {
    match t
    case Uint8 => (0.0, 255.0)
    case Int8 => (-128.0, 127.0)
    case Uint16 => (0.0, 65535.0)
    case Int16 => (-32768.0, 32767.0)
    case Uint32 => (0.0, 4294967295.0)
    case Int32 => (-2147483648.0, 2147483647.0)
    case Float32 => (MinInt64, MaxFloat64)
    case Float64 => (MinInt64, MaxFloat64)
  }

  /** NumType.IntoType: the jtd.Type of the same name. */
  function IntoJtd(t: NumType): JtdType
  {
    match t
    case Uint8 => TypeUint8
    case Int8 => TypeInt8
    case Uint16 => TypeUint16
    case Int16 => TypeInt16
    case Uint32 => TypeUint32
    case Int32 => TypeInt32
    case Float32 => TypeFloat32
    case Float64 => TypeFloat64
  }

  /** For integer types the source's ranges are exactly JTD's: an integral
      number lies in AsRange(t) iff the JTD type accepts it. */
  lemma RangeMatchesJtd(ts: TimestampParser, t: NumType, x: real)
    requires !IsFloat(t)
    ensures (IsIntegral(x) && AsRange(t).0 <= x <= AsRange(t).1)
        <==> TypeAccepts(ts, IntoJtd(t), JNumber(x))
  {
  }

  datatype InferredNumber = InferredNumber(min: real, max: real, isInteger: bool)

  /** A fresh accumulator. Its envelope is seeded with 0, not with infinities. */
  function NewNumber(): (r: InferredNumber)
    ensures Reachable(r)
    ensures forall x :: Admits(r, x) <==> x == 0.0
  {
    InferredNumber(0.0, 0.0, true)
  }

  /** math.Min and math.Max on non-NaN arguments. */
  function Min(a: real, b: real): real { if a <= b then a else b }
  function Max(a: real, b: real): real { if a >= b then a else b }

  /** Folds one observation into the accumulator. The envelope only widens:
      it is the smallest one holding the old envelope and `n`. Integrality is
      lost for good by one non-integral value. */
  function Infer(acc: InferredNumber, n: real): (r: InferredNumber)
    ensures r.min <= acc.min && r.min <= n && (r.min == acc.min || r.min == n)
    ensures r.max >= acc.max && r.max >= n && (r.max == acc.max || r.max == n)
    ensures r.isInteger <==> acc.isInteger && IsIntegral(n)
  {
    InferredNumber(Min(acc.min, n), Max(acc.max, n), acc.isInteger && IsIntegral(n))
  }

  /** Whether every number the accumulator stands for fits type `t`. */
  predicate ContainedBy(acc: InferredNumber, t: NumType)
  {
    if !acc.isInteger && !IsFloat(t) then false
    else
      var (lo, hi) := AsRange(t);
      lo <= acc.min && hi >= acc.max
  }

  /** The numbers an accumulator stands for: its envelope, integral ones only
      while every observation was integral. */
  predicate Admits(acc: InferredNumber, x: real)
  {
    acc.min <= x <= acc.max && (acc.isInteger ==> IsIntegral(x))
  }

  /** What every accumulator built from NewNumber by Infer satisfies: 0 is in
      the envelope (the seed), integral bounds while integral, and a
      non-integral observation made the envelope non-degenerate. */
  predicate Reachable(acc: InferredNumber)
  {
    && acc.min <= 0.0 <= acc.max
    && (acc.isInteger ==> IsIntegral(acc.min) && IsIntegral(acc.max))
    && (!acc.isInteger ==> acc.min < acc.max)
  }

  lemma InferKeepsReachable(acc: InferredNumber, n: real)
    requires Reachable(acc)
    ensures Reachable(Infer(acc, n))
  {
    if !IsIntegral(n) {
      assert n != 0.0;
    }
  }

  /** Observing never makes a type adequate that was not adequate before:
      widening never narrows the resolved type. */
  lemma InferOnlyWidens(acc: InferredNumber, n: real, t: NumType)
    requires ContainedBy(Infer(acc, n), t)
    ensures ContainedBy(acc, t)
  {
  }

  /** The accumulator after an observation admits that number and every
      number it admitted before. */
  lemma InferAdmits(acc: InferredNumber, n: real)
    ensures Admits(Infer(acc, n), n)
    ensures forall x :: Admits(acc, x) ==> Admits(Infer(acc, n), x)
  {
  }

  /** Two distinct integral reals are at least 1 apart. */
  lemma IntegralGap(a: real, b: real)
    requires IsIntegral(a) && IsIntegral(b) && b < a
    ensures a - b >= 1.0
  {
    assert (a.Floor - b.Floor) as real == a - b;
  }

  /** A non-integral accumulator admits some non-integral number. */
  lemma NonIntegralWitness(acc: InferredNumber) returns (x: real)
    requires Reachable(acc) && !acc.isInteger
    ensures Admits(acc, x) && !IsIntegral(x)
  {
    var d := if acc.max - acc.min < 1.0 then acc.max - acc.min else 1.0;
    var x1 := acc.min + d / 2.0;
    var x2 := acc.min + d / 3.0;
    if IsIntegral(x1) && IsIntegral(x2) {
      IntegralGap(x1, x2);
      assert false;
    }
    x := if IsIntegral(x1) then x2 else x1;
  }

  /** ContainedBy means what its name says: for an integer type it holds iff
      the JTD type accepts every number the accumulator admits. */
  lemma ContainedByIffAccepted(ts: TimestampParser, acc: InferredNumber, t: NumType)
    requires Reachable(acc) && !IsFloat(t)
    ensures ContainedBy(acc, t)
        <==> forall x :: Admits(acc, x) ==> TypeAccepts(ts, IntoJtd(t), JNumber(x))
  {
    if ContainedBy(acc, t) {
      forall x | Admits(acc, x)
        ensures TypeAccepts(ts, IntoJtd(t), JNumber(x))
      {
        RangeMatchesJtd(ts, t, x);
      }
    } else if forall x :: Admits(acc, x) ==> TypeAccepts(ts, IntoJtd(t), JNumber(x)) {
      if !acc.isInteger {
        var x := NonIntegralWitness(acc);
        RangeMatchesJtd(ts, t, x);
      } else {
        assert Admits(acc, acc.min) && Admits(acc, acc.max);
        RangeMatchesJtd(ts, t, acc.min);
        RangeMatchesJtd(ts, t, acc.max);
      }
    }
  }

  /** The integer types IntoType tries, in order, when the default does not fit. */
  const IntegerCandidates: seq<NumType> := [Uint8, Int8, Uint16, Int16, Uint32, Int32]

  /** The first type of `types` that contains the accumulator, if any. */
  function FirstContaining(acc: InferredNumber, types: seq<NumType>): (r: Option<NumType>)
    ensures r.Some? ==> r.value in types && ContainedBy(acc, r.value)
    decreases |types|
  {
    if |types| == 0 then None
    else if ContainedBy(acc, types[0]) then Some(types[0])
    else FirstContaining(acc, types[1..])
  }

  /** FirstContaining finds the first fitting type: none iff no type fits,
      and otherwise the fitting type every earlier one fails. */
  lemma {:induction false} FirstContainingIsFirst(acc: InferredNumber, types: seq<NumType>)
    ensures FirstContaining(acc, types).None? <==> forall i :: 0 <= i < |types| ==> !ContainedBy(acc, types[i])
    ensures forall i :: 0 <= i < |types| && ContainedBy(acc, types[i])
                     && (forall j :: 0 <= j < i ==> !ContainedBy(acc, types[j]))
                     ==> FirstContaining(acc, types) == Some(types[i])
    decreases |types|
  {
    if |types| > 0 {
      var rest := types[1..];
      FirstContainingIsFirst(acc, rest);
      assert forall i :: 1 <= i < |types| ==> types[i] == rest[i - 1];
      forall i | 0 < i < |types| && ContainedBy(acc, types[i])
                 && (forall j :: 0 <= j < i ==> !ContainedBy(acc, types[j]))
        ensures FirstContaining(acc, types) == Some(types[i])
      {
        assert !ContainedBy(acc, types[0]);
        forall j | 0 <= j < i - 1
          ensures !ContainedBy(acc, rest[j])
        {
          assert rest[j] == types[j + 1];
        }
      }
    }
  }

  /** Resolves the accumulator to a JTD type: the default when it fits,
      otherwise the first fitting integer type, otherwise float64. */
  function IntoType(acc: InferredNumber, default: NumType): (r: JtdType)
    ensures ContainedBy(acc, default) ==> r == IntoJtd(default)
    ensures r == TypeFloat64 || r == IntoJtd(default) || exists t :: t in IntegerCandidates && r == IntoJtd(t)
  {
    if ContainedBy(acc, default) then IntoJtd(default)
    else match FirstContaining(acc, IntegerCandidates)
      case Some(t) => IntoJtd(t)
      case None => TypeFloat64
  }

  /** When the default does not fit, IntoType scans uint8, int8, uint16,
      int16, uint32, int32 in that order and takes the first that fits, and
      falls back to float64 when none does. */
  lemma IntoTypeFallback(acc: InferredNumber, default: NumType)
    requires !ContainedBy(acc, default)
    ensures forall i :: 0 <= i < |IntegerCandidates| && ContainedBy(acc, IntegerCandidates[i])
                     && (forall j :: 0 <= j < i ==> !ContainedBy(acc, IntegerCandidates[j]))
                     ==> IntoType(acc, default) == IntoJtd(IntegerCandidates[i])
    ensures (forall i :: 0 <= i < |IntegerCandidates| ==> !ContainedBy(acc, IntegerCandidates[i]))
         ==> IntoType(acc, default) == TypeFloat64
  {
    FirstContainingIsFirst(acc, IntegerCandidates);
  }

  /** The resolved type accepts every number the accumulator admits, whatever
      the default: the materialised schema never rejects a seen number. */
  lemma IntoTypeAccepts(ts: TimestampParser, acc: InferredNumber, default: NumType, x: real)
    requires Admits(acc, x)
    ensures TypeAccepts(ts, IntoType(acc, default), JNumber(x))
  {
    if ContainedBy(acc, default) {
      if !IsFloat(default) {
        RangeMatchesJtd(ts, default, x);
      }
    } else {
      var first := FirstContaining(acc, IntegerCandidates);
      if first.Some? {
        RangeMatchesJtd(ts, first.value, x);
      }
    }
  }

  /** A fresh accumulator resolves to its default, for every NumType. */
  lemma FreshYieldsDefault(t: NumType)
    ensures IntoType(NewNumber(), t) == IntoJtd(t)
  {
  }

  /** A non-integral accumulator resolves to float64 for every integer
      default. For a float default it resolves to the default itself while
      the envelope lies in the float range. */
  lemma NonIntegralYieldsFloat(acc: InferredNumber, t: NumType)
    requires !acc.isInteger
    ensures !IsFloat(t) ==> IntoType(acc, t) == TypeFloat64
    ensures IsFloat(t) && MinInt64 <= acc.min && acc.max <= MaxFloat64 ==> IntoType(acc, t) == IntoJtd(t)
  {
    if !IsFloat(t) {
      IntoTypeFallback(acc, t);
    }
  }

  /** Every NumType names a JTD type that accepts only numbers. */
  lemma JtdNeedsNumber(ts: TimestampParser, t: NumType, w: Json)
    requires !w.JNumber?
    ensures !TypeAccepts(ts, IntoJtd(t), w)
  {
  }

  /** Whatever it resolves to, the type only accepts numbers. */
  lemma IntoTypeNeedsNumber(ts: TimestampParser, acc: InferredNumber, default: NumType, w: Json)
    requires !w.JNumber?
    ensures !TypeAccepts(ts, IntoType(acc, default), w)
  {
    if ContainedBy(acc, default) {
      JtdNeedsNumber(ts, default, w);
    } else {
      var first := FirstContaining(acc, IntegerCandidates);
      if first.Some? {
        JtdNeedsNumber(ts, first.value, w);
      }
    }
  }

  /** The accumulator after observing `ns` in order. */
  function InferAll(acc: InferredNumber, ns: seq<real>): InferredNumber
    decreases |ns|
  {
    if |ns| == 0 then acc else InferAll(Infer(acc, ns[0]), ns[1..])
  }

  /** After a run of observations from any accumulator, the envelope is the
      smallest one holding the old envelope and every observation: each
      bound is an old bound or an observation. The integer flag says whether
      the old flag held and every observation was integral. From NewNumber
      this gives [min(0, ns), max(0, ns)]. */
  lemma {:induction false} InferAllEnvelope(acc: InferredNumber, ns: seq<real>)
    ensures var r := InferAll(acc, ns);
      && r.min <= acc.min && acc.max <= r.max
      && (forall i :: 0 <= i < |ns| ==> r.min <= ns[i] <= r.max)
      && (r.min == acc.min || exists i :: 0 <= i < |ns| && r.min == ns[i])
      && (r.max == acc.max || exists i :: 0 <= i < |ns| && r.max == ns[i])
      && (r.isInteger <==> acc.isInteger && forall i :: 0 <= i < |ns| ==> IsIntegral(ns[i]))
    decreases |ns|
  {
    if |ns| > 0 {
      var next := Infer(acc, ns[0]);
      InferAllEnvelope(next, ns[1..]);
      var r := InferAll(acc, ns);
      assert r == InferAll(next, ns[1..]);
      assert forall i :: 1 <= i < |ns| ==> ns[i] == ns[1..][i - 1];
      if r.min != acc.min && r.min != next.min {
        var i :| 0 <= i < |ns[1..]| && r.min == ns[1..][i];
        assert r.min == ns[i + 1];
      }
      if r.max != acc.max && r.max != next.max {
        var i :| 0 <= i < |ns[1..]| && r.max == ns[1..][i];
        assert r.max == ns[i + 1];
      }
      if r.isInteger {
        assert forall i :: 0 <= i < |ns| ==> IsIntegral(ns[i]) by {
          forall i | 0 <= i < |ns| ensures IsIntegral(ns[i]) {
            if i > 0 { assert ns[i] == ns[1..][i - 1]; }
          }
        }
      }
    }
  }

  /** inferred_number_test.go: a fresh accumulator honours every default. */
  lemma IntoTypeVectorsFresh()
    ensures var nn1 := NewNumber();
      && IntoType(nn1, Uint8) == TypeUint8 && IntoType(nn1, Int8) == TypeInt8
      && IntoType(nn1, Uint16) == TypeUint16 && IntoType(nn1, Int16) == TypeInt16
      && IntoType(nn1, Uint32) == TypeUint32 && IntoType(nn1, Int32) == TypeInt32
      && IntoType(nn1, Float32) == TypeFloat32 && IntoType(nn1, Float64) == TypeFloat64
  {
  }

  /** inferred_number_test.go: the envelope [0, 255] (uint8's limits). */
  lemma IntoTypeVectorsUint8Limits()
    ensures var nn2 := Infer(Infer(NewNumber(), 0.0), 255.0);
      && IntoType(nn2, Uint8) == TypeUint8 && IntoType(nn2, Int8) == TypeUint8
      && IntoType(nn2, Uint16) == TypeUint16 && IntoType(nn2, Int16) == TypeInt16
      && IntoType(nn2, Uint32) == TypeUint32 && IntoType(nn2, Int32) == TypeInt32
      && IntoType(nn2, Float32) == TypeFloat32 && IntoType(nn2, Float64) == TypeFloat64
  {
    var nn2 := Infer(Infer(NewNumber(), 0.0), 255.0);
    assert nn2 == InferredNumber(0.0, 255.0, true);
    assert ContainedBy(nn2, Uint8);
    assert FirstContaining(nn2, IntegerCandidates) == Some(Uint8);
  }

  /** The envelope [-128, 127], int8's limits. */
  const Int8Limits := InferredNumber(-128.0, 127.0, true)

  /** An unsigned default that cannot hold int8's limits falls back to int8,
      the second candidate. */
  lemma Int8LimitsFallback(d: NumType)
    requires d == Uint8 || d == Uint16 || d == Uint32
    ensures IntoType(Int8Limits, d) == TypeInt8
  {
    assert !ContainedBy(Int8Limits, d);
    IntoTypeFallback(Int8Limits, d);
    assert IntegerCandidates[1] == Int8;
    assert !ContainedBy(Int8Limits, IntegerCandidates[0]);
  }

  /** inferred_number_test.go: the envelope [-128, 127] (int8's limits). */
  lemma IntoTypeVectorsInt8Limits()
    ensures var nn3 := Infer(Infer(NewNumber(), -128.0), 127.0);
      && IntoType(nn3, Uint8) == TypeInt8 && IntoType(nn3, Int8) == TypeInt8
      && IntoType(nn3, Uint16) == TypeInt8 && IntoType(nn3, Int16) == TypeInt16
      && IntoType(nn3, Uint32) == TypeInt8 && IntoType(nn3, Int32) == TypeInt32
      && IntoType(nn3, Float32) == TypeFloat32 && IntoType(nn3, Float64) == TypeFloat64
  {
    var nn3 := Infer(Infer(NewNumber(), -128.0), 127.0);
    assert nn3 == Int8Limits;
    assert ContainedBy(nn3, Int8) && ContainedBy(nn3, Int16) && ContainedBy(nn3, Int32);
    assert ContainedBy(nn3, Float32) && ContainedBy(nn3, Float64);
    Int8LimitsFallback(Uint8);
    Int8LimitsFallback(Uint16);
    Int8LimitsFallback(Uint32);
  }

  /** inferred_number_test.go: one non-integral observation, 0.5. */
  lemma IntoTypeVectorsNonIntegral()
    ensures var nn4 := Infer(NewNumber(), 0.5);
      && IntoType(nn4, Uint8) == TypeFloat64 && IntoType(nn4, Int8) == TypeFloat64
      && IntoType(nn4, Uint16) == TypeFloat64 && IntoType(nn4, Int16) == TypeFloat64
      && IntoType(nn4, Uint32) == TypeFloat64 && IntoType(nn4, Int32) == TypeFloat64
      && IntoType(nn4, Float32) == TypeFloat32 && IntoType(nn4, Float64) == TypeFloat64
  {
    assert !IsIntegral(0.5) by { assert (0.5).Floor == 0; }
    var nn4 := Infer(NewNumber(), 0.5);
    assert nn4 == InferredNumber(0.0, 0.5, false);
    NonIntegralYieldsFloat(nn4, Uint8);
    NonIntegralYieldsFloat(nn4, Int8);
    NonIntegralYieldsFloat(nn4, Uint16);
    NonIntegralYieldsFloat(nn4, Int16);
    NonIntegralYieldsFloat(nn4, Uint32);
    NonIntegralYieldsFloat(nn4, Int32);
    NonIntegralYieldsFloat(nn4, Float32);
    NonIntegralYieldsFloat(nn4, Float64);
  }
}

=== FILE: outcomes.dfy ===
/** Result shapes shared by the whole model. */
module Outcomes {

  /** Go's nil-able pointers and `(value, ok)` lookups. */
  datatype Option<+T> = None | Some(value: T)

  /** How one inference call ends.
      - `Ok` carries the result.
      - `Panic` is a Go runtime panic (the fall-through at the end of the
        transition function), which unwinds every enclosing call.
      - `OrderDependent` marks a result that depends on Go's randomised map
        iteration order. This model does not fix that order. */
  datatype Outcome<+T> = Ok(value: T) | Panic | OrderDependent

  /** Gathers per-key outcomes into one outcome. Any panic wins, because a
      panic aborts the whole call whatever the iteration order. Next comes any
      order-dependent key. Otherwise every key's value is kept. */
  function Collect<T>(subs: map<string, Outcome<T>>): (r: Outcome<map<string, T>>)
    ensures r.Ok? <==> forall k :: k in subs ==> subs[k].Ok?
    ensures r.Panic? <==> exists k :: k in subs && subs[k].Panic?
    ensures r.Ok? ==> r.value.Keys == subs.Keys
    ensures r.Ok? ==> forall k :: k in subs ==> subs[k] == Ok(r.value[k])
  {
    if exists k :: k in subs && subs[k].Panic? then Panic
    else if exists k :: k in subs && subs[k].OrderDependent? then OrderDependent
    else Ok(map k | k in subs :: subs[k].value)
  }
}

=== FILE: soundness.dfy ===
/** What a node means, and the guarantee the inferrer exists for: the schema
    it materialises accepts every sample it was fed. The guarantee is proved
    for the corrected transition. The transition as written breaks it, as
    the findings show. */
module Soundness {
  import opened Outcomes
  import opened JsonValues
  import opened JtdSchema
  import opened Inference
  import opened InferenceInvariants
  import Numbers

  /** The instances a node stands for. Unknown stands for nothing yet, and a
      number node for its accumulator's admitted numbers. The meaning is
      defined independently of IntoSchema. */
  predicate NodeAccepts(ts: TimestampParser, n: InferredSchema, w: Json)
    decreases w, n
  {
    match n
    case Unknown => false
    case Any => true
    case Boolean => w.JBool?
    case Number(acc) => w.JNumber? && Numbers.Admits(acc, w.n)
    case String => w.JString?
    case Timestamp => w.JString? && ts(w.s)
    case Enum(members) => w.JString? && w.s in members
    case Array(element) =>
      w.JArray? && forall i :: 0 <= i < |w.items| ==> NodeAccepts(ts, element, w.items[i])
    case Properties(required, optional) =>
      && w.JObject?
      && (forall k :: k in Keys(required) ==> k in w.fields)
      && (forall k :: k in w.fields ==>
            if k in Keys(required) then NodeAccepts(ts, required.entries[k], w.fields[k])
            else k in Keys(optional) && NodeAccepts(ts, optional.entries[k], w.fields[k]))
    case Values(valueSchema) =>
      w.JObject? && forall k :: k in w.fields ==> NodeAccepts(ts, valueSchema, w.fields[k])
    case Discriminator(_, _) => true
    case Nullable(inner) => w.JNull? || NodeAccepts(ts, inner, w)
  }

  /** A step only widens: whatever the old node accepted, the new node
      accepts, in both modes whenever the step succeeds. The corrected step
      always succeeds. */
  lemma {:induction false} StepWidens(mode: Mode, ts: TimestampParser, n: InferredSchema, v: Json, w: Json)
    requires Inferable(n) && NodeAccepts(ts, n, w)
    ensures mode.Corrected? ==> Step(mode, ts, n, v).Ok?
    ensures Step(mode, ts, n, v).Ok? ==> NodeAccepts(ts, Step(mode, ts, n, v).value, w)
    decreases v, 2, n
  {
    StepInferable(mode, ts, n, v);
    if !v.JNull? {
      match n
      case Nullable(inner) =>
        if mode.Corrected? && !w.JNull? {
          StepWidens(mode, ts, inner, v, w);
        }
      case Array(element) =>
        if v.JArray? && FoldItems(mode, ts, element, v.items).Ok? {
          forall i | 0 <= i < |w.items|
            ensures NodeAccepts(ts, FoldItems(mode, ts, element, v.items).value, w.items[i])
          {
            FoldWidens(mode, ts, element, v.items, w.items[i]);
          }
        }
      case Properties(required, optional) =>
        if v.JObject? {
          MergeWidens(mode, ts, required, optional, v, w);
        }
      case _ =>
    }
  }

  lemma {:induction false} FoldWidens(mode: Mode, ts: TimestampParser, n: InferredSchema, items: seq<Json>, w: Json)
    requires Inferable(n) && NodeAccepts(ts, n, w)
    ensures mode.Corrected? ==> FoldItems(mode, ts, n, items).Ok?
    ensures FoldItems(mode, ts, n, items).Ok? ==> NodeAccepts(ts, FoldItems(mode, ts, n, items).value, w)
    decreases items
  {
    if |items| > 0 {
      StepWidens(mode, ts, n, items[0], w);
      StepInferable(mode, ts, n, items[0]);
      var s := Step(mode, ts, n, items[0]);
      if s.Ok? {
        FoldWidens(mode, ts, s.value, items[1..], w);
      }
    }
  }

  lemma {:induction false} MergeWidens(mode: Mode, ts: TimestampParser, required: NodeMap, optional: NodeMap, v: Json, w: Json)
    requires v.JObject? && Inferable(Properties(required, optional))
    requires NodeAccepts(ts, Properties(required, optional), w)
    ensures mode.Corrected? ==> MergeProperties(mode, ts, required, optional, v).Ok?
    ensures MergeProperties(mode, ts, required, optional, v).Ok? ==>
      NodeAccepts(ts, MergeProperties(mode, ts, required, optional, v).value, w)
    decreases v, 0
  {
    MergeInferable(mode, ts, required, optional, v);
    MergeShape(mode, ts, required, optional, v);
    if MergeProperties(mode, ts, required, optional, v).Ok? {
      var n := MergeProperties(mode, ts, required, optional, v).value;
      forall k | k in w.fields
        ensures if k in Keys(n.required) then NodeAccepts(ts, n.required.entries[k], w.fields[k])
                else k in Keys(n.optional) && NodeAccepts(ts, n.optional.entries[k], w.fields[k])
      {
        if k in v.fields {
          LookupInferable(required, optional, k);
          StepWidens(mode, ts, Lookup(required, optional, k), v.fields[k], w.fields[k]);
          if k in Keys(required) {
            assert Lookup(required, optional, k) == required.entries[k];
          }
        }
      }
    }
  }

  /** A corrected step accepts the sample it was fed. */
  lemma {:induction false} StepAccepts(ts: TimestampParser, n: InferredSchema, v: Json)
    requires Inferable(n)
    ensures Step(Corrected, ts, n, v).Ok?
    ensures NodeAccepts(ts, Step(Corrected, ts, n, v).value, v)
    decreases v, 2, n
  {
    StepInferable(Corrected, ts, n, v);
    if !v.JNull? {
      match n
      case Nullable(inner) =>
        StepAccepts(ts, inner, v);
      case Unknown =>
        FromUnknownAccepts(ts, v);
      case Array(element) =>
        if v.JArray? {
          FoldAccepts(ts, element, v.items);
        }
      case Properties(required, optional) =>
        if v.JObject? {
          MergeAccepts(ts, required, optional, v);
        }
      case _ =>
    }
  }

  lemma {:induction false} FromUnknownAccepts(ts: TimestampParser, v: Json)
    ensures FromUnknown(Corrected, ts, v).Ok?
    ensures NodeAccepts(ts, FromUnknown(Corrected, ts, v).value, v)
    decreases v, 1
  {
    FromUnknownInferable(Corrected, ts, v);
    match v
    case JArray(items) =>
      FoldAccepts(ts, Unknown, items);
    case JObject(fields) =>
      var subs := map k | k in fields :: Step(Corrected, ts, Unknown, fields[k]);
      forall k | k in fields
        ensures subs[k].Ok? && NodeAccepts(ts, subs[k].value, fields[k])
      {
        StepAccepts(ts, Unknown, fields[k]);
      }
    case _ =>
  }

  /** Every element fed is accepted by the folded node. */
  lemma {:induction false} FoldAccepts(ts: TimestampParser, n: InferredSchema, items: seq<Json>)
    requires Inferable(n)
    ensures FoldItems(Corrected, ts, n, items).Ok?
    ensures forall i :: 0 <= i < |items| ==> NodeAccepts(ts, FoldItems(Corrected, ts, n, items).value, items[i])
    decreases items
  {
    if |items| > 0 {
      StepAccepts(ts, n, items[0]);
      StepInferable(Corrected, ts, n, items[0]);
      var next := Step(Corrected, ts, n, items[0]).value;
      FoldAccepts(ts, next, items[1..]);
      FoldWidens(Corrected, ts, next, items[1..], items[0]);
      var last := FoldItems(Corrected, ts, n, items).value;
      forall i | 0 < i < |items|
        ensures NodeAccepts(ts, last, items[i])
      {
        assert items[i] == items[1..][i - 1];
      }
    }
  }

  lemma {:induction false} MergeAccepts(ts: TimestampParser, required: NodeMap, optional: NodeMap, v: Json)
    requires v.JObject? && Inferable(Properties(required, optional))
    ensures MergeProperties(Corrected, ts, required, optional, v).Ok?
    ensures NodeAccepts(ts, MergeProperties(Corrected, ts, required, optional, v).value, v)
    decreases v, 0
  {
    MergeInferable(Corrected, ts, required, optional, v);
    MergeShape(Corrected, ts, required, optional, v);
    var n := MergeProperties(Corrected, ts, required, optional, v).value;
    forall k | k in v.fields
      ensures if k in Keys(n.required) then NodeAccepts(ts, n.required.entries[k], v.fields[k])
              else k in Keys(n.optional) && NodeAccepts(ts, n.optional.entries[k], v.fields[k])
    {
      LookupInferable(required, optional, k);
      StepAccepts(ts, Lookup(required, optional, k), v.fields[k]);
      if k in Keys(required) {
        assert Lookup(required, optional, k) == required.entries[k];
      }
    }
  }

  /** The materialised schema accepts whatever its node stands for. */
  lemma {:induction false} IntoSchemaSound(ts: TimestampParser, n: InferredSchema, w: Json)
    requires NodeAccepts(ts, n, w)
    ensures Accepts(ts, IntoSchema(n), w)
    decreases w, n
  {
    match n
    case Number(acc) =>
      Numbers.IntoTypeAccepts(ts, acc, Numbers.Uint8, w.n);
    case Array(element) =>
      forall i | 0 <= i < |w.items|
        ensures Accepts(ts, IntoSchema(element), w.items[i])
      {
        IntoSchemaSound(ts, element, w.items[i]);
      }
    case Properties(required, optional) =>
      forall k | k in w.fields
        ensures if k in Keys(required) then Accepts(ts, IntoSchema(required.entries[k]), w.fields[k])
                else Accepts(ts, IntoSchema(optional.entries[k]), w.fields[k])
      {
        if k in Keys(required) {
          IntoSchemaSound(ts, required.entries[k], w.fields[k]);
        } else {
          IntoSchemaSound(ts, optional.entries[k], w.fields[k]);
        }
      }
    case Values(valueSchema) =>
      forall k | k in w.fields
        ensures Accepts(ts, IntoSchema(valueSchema), w.fields[k])
      {
        IntoSchemaSound(ts, valueSchema, w.fields[k]);
      }
    case Nullable(inner) =>
      if !w.JNull? {
        IntoSchemaSound(ts, inner, w);
        NullableWidens(ts, IntoSchema(inner), w);
      }
    case _ =>
  }

  /** The JSON kind a node stands for. */
  predicate SameKind(n: InferredSchema, w: Json)
  {
    match n
    case Boolean => w.JBool?
    case Number(_) => w.JNumber?
    case String => w.JString?
    case Timestamp => w.JString?
    case Enum(_) => w.JString?
    case Array(_) => w.JArray?
    case Properties(_, _) => w.JObject?
    case Values(_) => w.JObject?
    case _ => true
  }

  /** The materialised schema is as narrow as the node's kind: apart from
      Unknown, Any, Discriminator and Nullable nodes, and a Properties node
      with both maps nil, the schema rejects null and every value of another
      JSON kind. */
  lemma IntoSchemaPrecise(ts: TimestampParser, n: InferredSchema, w: Json)
    requires !(n.Unknown? || n.Any? || n.Discriminator? || n.Nullable?)
    requires n.Properties? ==> n.required.Entries? || n.optional.Entries?
    requires !SameKind(n, w)
    ensures !Accepts(ts, IntoSchema(n), w)
  {
    if n.Number? {
      Numbers.IntoTypeNeedsNumber(ts, n.number, Numbers.Uint8, w);
    }
  }

  /** With the corrected transition, inference over any rows succeeds and its
      schema accepts every row. */
  lemma CorrectedSchemaAcceptsRows(ts: TimestampParser, rows: seq<Json>)
    ensures FoldItems(Corrected, ts, Unknown, rows).Ok?
    ensures forall i :: 0 <= i < |rows| ==> Accepts(ts, IntoSchema(FoldItems(Corrected, ts, Unknown, rows).value), rows[i])
  {
    FoldAccepts(ts, Unknown, rows);
    forall i | 0 <= i < |rows|
      ensures Accepts(ts, IntoSchema(FoldItems(Corrected, ts, Unknown, rows).value), rows[i])
    {
      IntoSchemaSound(ts, FoldItems(Corrected, ts, Unknown, rows).value, rows[i]);
    }
  }
}
